=== FILE: README.md ===
# Paddy rice drying tracker, modelled in Dafny

The tracker is a small Flask application. Three kinds of account use it:
- municipal staff;
- barangay (village) staff;
- farmers.

They record drying batches of paddy rice: weights, moisture readings and the planting, harvest and drying dates. They view those batches through role-scoped record lists, dashboards and analytics charts.

This project models the core of that application:
- **The tables.** Users, farmers and drying records, with the identity helpers defined on them: a farmer's full name, the type-tagged session ids, and each principal's role (`models.dfy`).
- **The store.** Held as a `Database` class whose methods append, overwrite and delete rows and keep the primary and unique keys intact (`store.dfy`).
- **The keyed folds.** Each dashboard and analytics page walks its records once and accumulates weights into an insertion-ordered dictionary. The loops are methods proved against prefix-recursive specification functions (`aggregation.dfy`).
- **The final key sort.** A view re-sorts its chart's keys with `sorted(..., key=...)` and falls back to first-seen order when a key does not parse (`ordering.dfy`). This rests on:
  - Python's `sorted()` as a stable insertion sort (`sorting.dfy`);
  - `strftime`/`strptime` month keys (`calendar.dfy`);
  - `str()`/`int()` and `<` on strings (`text.dfy`).
- **The request handlers of the main blueprint** (`views.dfy`):
  - who sees which records;
  - the dashboards and analytics pages;
  - `add_record`, `add_farmer`, `api_sync`, `edit_record` and `delete_record`.
- **The authentication blueprint** (`auth.dfy`): password login and the two staff sign-up forms.

A handler answers with a `Response`:
- `Render(page)`: the data a template is rendered with;
- `Redirect(target)`;
- `Status(code)`: a JSON status, or an exception that escapes the handler.

A read-only handler takes the tables it queries as values. A handler that writes takes the `Database` and states the new tables in its `ensures`.

Main results:
- **The folds compute bucket totals.** Every bucket holds the sum of what `float()` accepted from the records grouped under its key. A record whose weight is rejected still creates its bucket. The modelled handlers never commit such a weight; it can only come from rows written some other way, and the views guard against it as the code does. The bucket totals add up to the grouped total (`BucketsPartitionGroupedSum`).
- **Month and year keys come out in order.** `strptime` reads a month key back to the month it was written from, and `int` does the same for a year key. So, with `%Y` written as four zero-padded digits, the barangay monthly dashboard and the month and year analytics never fall back: their keys come out strictly chronological.
- **An unknown `period` falls back.** Such a period groups by `'%b %Y'` but sorts with `int`, which always raises, so the chart keeps first-seen order.
- **The municipal analytics page sorts keys as strings.** Four-digit years therefore ascend, but months come out alphabetically: "Feb 2024" before "Jan 2024".
- **Login looks up by the '@'.** An identifier with '@' can only log a staff user in, and one without can only log a farmer in. A farmer whose username contains '@' can never log in.
- **Record scoping.** The records page shows municipal staff every record, barangay staff exactly their barangay's records, and a farmer exactly the records attributed to them, newest first.
- **`add_record` attribution.** The form attributes a record to the caller, for a farmer, or to an existing farmer of the caller's barangay, for barangay staff, and to no one else.

## Model

| member | source | states |
|---|---|---|
| Models.Float | website/views.py:36-40 | `float()` of a weight column succeeds exactly when the stored value is numeric |
| Models.FullName | website/models.py:57-62 | the full name is the first name, a space, the middle name and a space only when it is truthy, then the last name |
| Models.EmptyMiddleNameIsNoMiddleName | website/models.py:59-62 | an empty middle name gives the same full name as a missing one |
| Models.Role | website/models.py:52-54 | a farmer's role is always "farmer"; a user's role is the stored column |
| Models.BarangayName | website/models.py:38 | a farmer always has a barangay, the one stored on the farmer |
| Models.UserSessionId | website/models.py:23-24 | a user's session id is "user-" followed by text that `int` reads back as the user's id |
| Models.FarmerSessionId | website/models.py:48-49 | a farmer's session id is "farmer-" followed by text that `int` reads back as the farmer's id |
| Models.SessionId | website/models.py:22-24 | the session id starts with "user-" exactly when the principal is a user |
| Models.DisplayName | website/views.py:177-194 | the name recorded for a farmer is the derived full name; a user's is the stored `full_name` column |
| Models.SessionIdInjective | website/models.py:23-24 | two principals with the same session id are of the same kind and have the same id, so "user-" and "farmer-" ids never collide |
| Text.IntToString | website/views.py:175 | `str(i)` is a '-' exactly for negative `i`, then decimal digits without a leading zero (just "0" for zero) |
| Text.IntToStringRoundTrip | website/views.py:175-185 | `int(str(i)) == i` for every integer |
| Text.IntToStringInjective | website/views.py:175 | different integers have different decimal strings, so `str(current_user.id)` names one farmer id |
| Text.ParseInt | website/views.py:185 | the model's `int(s)`: ASCII digits, optionally after one '+' or '-', read as their value, negated after '-'; every other string raises, in particular the empty string and one starting with neither a digit nor a sign |
| Text.LexLt | website/views.py:437 | `a < b` on `str`: by the first character, a proper prefix coming first |
| Text.LexLtIsFirstDifference | website/views.py:437 | string `<` holds exactly when `a` is a proper prefix of `b`, or `a` has the smaller character where the two first differ |
| Text.LexLtDigits | website/views.py:437 | for digit strings of equal length, string `<` is numeric `<` |
| Calendar.YearString | website/views.py:298 | `strftime('%Y')` is four zero-padded decimal digits |
| Calendar.FullMonthKey | website/views.py:258 | `strptime(k, '%B %Y')` of the key `strftime('%B %Y')` writes gives back the date's year and month |
| Calendar.AbbrevMonthKey | website/views.py:306 | `strptime(k, '%b %Y')` of the key `strftime('%b %Y')` writes gives back the date's year and month |
| Calendar.YearKey | website/views.py:298 | the key `strftime('%Y')` writes is four digits that `int` reads back as the year |
| Calendar.ParseMonthYear | website/views.py:268 | `strptime(s, '<month> %Y')` yields a year in 1..9999 and a month of the table, and accepts only exactly the string `strftime` writes for that year and month |
| Calendar.MonthYearRoundTrip | website/views.py:258-268 | `strptime(strftime(d, '%B %Y'), '%B %Y')`, and the same with `%b`, gives back `d`'s year and month |
| Calendar.AbbrevMonthKeyIsNotInteger | website/views.py:306-317 | `int()` of a `'%b %Y'` key always raises |
| Calendar.MonthRankOrder | website/views.py:268 | month ranks order and identify months as `datetime(year, month, 1)` does |
| Sorting.Sort | website/views.py:268 | `sorted()` returns a permutation of its input |
| Sorting.SortSorted | website/views.py:268 | `sorted()` under a strict order returns its input in non-decreasing order, as a permutation |
| Store.FindUserByEmail | website/auth.py:56 | the lookup finds a user with that email, or there is none |
| Store.FindFarmer | website/views.py:186 | `Farmer.query.get(id)` and the username lookups find a farmer with that id or username, or there is none |
| Store.IndexOfRecord | website/views.py:387 | `get_or_404` finds the position of the record with that id, or no record has it |
| Store.Numbered | website/views.py:84-86 | one flush keeps the rows in order and numbers them consecutively from the table's id counter |
| Store.Database.AddUser | website/auth.py:90-91 | the user is appended under a fresh id; the other tables are unchanged and every key stays unique |
| Store.Database.AddFarmer | website/views.py:128-129 | the farmer is appended under a fresh id; the other tables are unchanged and every key stays unique |
| Store.Database.AddRecords | website/views.py:84-86 | the records are appended in order under fresh ids; the other tables are unchanged |
| Store.Database.ReplaceRecord | website/views.py:389-396 | exactly one row is overwritten, keeping its id |
| Store.Database.RemoveRecord | website/views.py:404-405 | exactly one row is removed; the order of the rest is kept |
| Aggregation.GroupKey | website/views.py:29-31 | the batch view keys a record by its batch name, "(Unnamed Batch)" when that is empty; the barangay view keys by the barangay and skips a record without a truthy one; the calendar views skip a record without a drying date and otherwise key it by `strftime('%B %Y')`, `strftime('%b %Y')` or `strftime('%Y')` of that date |
| Aggregation.Amount | website/views.py:36-40 | the initial weight counts when `float()` accepts it; the final weight counts only if the initial weight was accepted first |
| Aggregation.AddWeights | website/views.py:36-40 | one record adds its accepted initial weight, and its final weight only after that, to its bucket; no other bucket changes |
| Aggregation.AddYield | website/views.py:352-354 | one record adds its final weight to its bucket when `float()` accepts it; no other bucket changes |
| Aggregation.FoldWeights | website/views.py:28-40 | one loop step keeps the chart equal to the two-weight fold over the records seen so far |
| Aggregation.FoldYield | website/views.py:346-354 | one loop step keeps the chart equal to the guarded yield fold over the records seen so far |
| Aggregation.GroupKeys | website/views.py:33-34 | the chart's keys are listed once each |
| Aggregation.GroupKeysAreGroupedKeys | website/views.py:233-238 | a key is a bucket exactly when some record the view keeps is grouped under it |
| Aggregation.BucketsPartitionGroupedSum | website/views.py:28-40 | the bucket totals add up to the sum over all grouped records: nothing is lost or counted twice |
| Aggregation.GroupWeights | website/views.py:233-244 | the two-weight loop builds the first-seen keys, and each bucket holds its two totals |
| Aggregation.GroupYield | website/views.py:344-365 | the guarded yield loop builds the first-seen keys, and each bucket holds its final-weight total |
| Aggregation.GroupYieldOrAbort | website/views.py:294-309 | the unguarded yield loop raises exactly when some grouped record's final weight is rejected; otherwise it builds the same chart as the guarded loop |
| Ordering.ParseKey | website/views.py:314-317 | the `int` key is `int()` itself; a `strptime` key parses exactly when `strptime` accepts the string, to the rank of its month |
| Ordering.ParseKeyOrdersLikeDates | website/views.py:268 | two month keys compare by parsed rank exactly as the `datetime`s `strptime` returns for them compare |
| Ordering.OrderedKeys | website/views.py:266-272 | every key ordering is a permutation of the chart's keys |
| Ordering.CopyInOrder | website/views.py:269-270 | the copied dictionary has exactly the sorted keys, each with its value from the chart |
| Ordering.Reorder | website/views.py:312-321 | the copied dictionary holds the same entries as the chart, in sorted key order, or in first-seen order when a key does not parse |
| Ordering.SortByRankIsStrict | website/views.py:268 | sorting distinct keys that parse to distinct values gives strictly increasing parsed values |
| Ordering.MonthKeysChronological | website/views.py:256-272 | every month key parses back, and the sorted keys are strictly chronological |
| Ordering.YearKeysAscending | website/views.py:296-317 | every year key parses with `int`, and the sorted years strictly increase |
| Ordering.UnknownPeriodKeepsFirstSeenOrder | website/views.py:302-321 | a period other than 'year' and 'month' groups by month but sorts with `int`, so the keys stay in first-seen order |
| Ordering.MunicipalYearsAscending | website/views.py:419-437 | sorting the year keys as strings still puts the years in increasing order |
| Ordering.MunicipalMonthsAlphabetical | website/views.py:427-437 | sorting month keys as strings puts "Feb 2024" before "Jan 2024" |
| Views.Where | website/views.py:141-149 | `filter_by` keeps exactly the matching rows, each as often as in the table |
| Views.FarmersIn | website/views.py:99 | the farmers listed are exactly those of the given barangay; a NULL barangay matches none |
| Views.ByTimestampDesc | website/views.py:139 | `order_by(timestamp.desc())` is a permutation with timestamps non-increasing |
| Views.VisibleRecords | website/views.py:133-154 | municipal staff see every record, barangay staff exactly their barangay's records, a farmer exactly their own, any other role none; newest first |
| Views.Farmers | website/views.py:93-100 | only barangay staff get the list, and it holds exactly their barangay's farmers |
| Views.Dashboard | website/views.py:14-49 | staff are redirected; a farmer's own records are bucketed by batch name with both weight totals; other roles go to login |
| Views.BarangayDashboard | website/views.py:226-281 | municipal staff get every record bucketed by barangay; barangay staff get their records by '%B %Y' month in chronological order; other roles are redirected |
| Views.PeriodGrouping | website/views.py:294-302 | 'year' groups by year, any other period by '%b %Y' month |
| Views.PeriodParser | website/views.py:314-317 | 'month' sorts with `strptime('%b %Y')`, any other period with `int` |
| Views.PeriodOrder | website/views.py:290-321 | years come out increasing, months chronological, and any other period keeps first-seen order |
| Views.BarangayAnalytics | website/views.py:284-326 | only barangay staff; the answer is a 500 exactly when a grouped final weight is rejected; otherwise their records' final-weight totals in the period's order |
| Views.FarmerAnalytics | website/views.py:329-382 | only farmers, with staff and others redirected separately; the farmer's final-weight totals, rejected weights skipped, in the period's order |
| Views.Analytics | website/views.py:408-444 | only municipal staff; a 500 exactly when a grouped final weight is rejected; otherwise all records' totals with keys sorted as strings, years increasing |
| Views.DateValue | website/views.py:205-208 | a date that parsed is stored as that date; an empty field stores NULL |
| Views.Attribution | website/views.py:172-192 | a farmer may attribute a record only to themself, by the decimal form of their id; barangay staff only to an existing farmer of their own barangay, by an integer id; others to no one |
| Views.NewRecord | website/views.py:194-217 | the new row snapshots the farmer's id, name and barangay, the caller's id and the clock, and takes the form's batch name, both weights, the five sensor and moisture readings, the drying time and the dates |
| Views.AddRecord | website/views.py:157-224 | other roles are redirected; a refused attribution changes nothing; a barangay farmer id SQLite cannot bind, a malformed date, or a numeric field `float()` rejects at the commit raises and changes nothing; otherwise exactly one record is appended |
| Views.AddFarmer | website/views.py:103-130 | only barangay staff; a taken username adds nothing; otherwise one farmer is appended with the caller's barangay and id and the hashed password |
| Views.Complete | website/models.py:72-83 | an item supplies every NOT NULL column of a drying record |
| Views.NumericRejected | website/views.py:197-219 | some numeric field of the form is text `float()` rejects, which the `Float` columns' conversion raises on at the commit |
| Views.Storable | website/views.py:64-86 | the commit accepts an item's row: it is complete, every numeric column holds a value `float()` accepts, and its farmer id, if any, fits a signed 64-bit INTEGER |
| Views.SyncedRecord | website/views.py:65-83 | a synced row takes the caller's id and barangay and every other column from the item, with no due date |
| Views.ApiSync | website/views.py:55-91 | a falsy payload or one without 'records' is a 400; a payload the handler cannot read raises and is a 500 with nothing added; an item the commit rejects (a missing NOT NULL column, a numeric value `float()` rejects, a farmer id beyond 64 bits) rolls the batch back with a 500; otherwise every item is appended, in order, with no deduplication |
| Views.Edited | website/views.py:389-395 | the batch name, both weights and the four dates come from the form; every other column is kept |
| Views.WeightRejected | website/views.py:390-396 | one of the submitted weights is text `float()` rejects, so the commit raises |
| Views.EditRecord | website/views.py:384-398 | an id SQLite cannot bind is a 500; an unknown id is a 404; a malformed date, or a weight `float()` rejects at the commit, raises and changes nothing; otherwise only that record is overwritten |
| Views.DeleteRecord | website/views.py:400-406 | an id SQLite cannot bind is a 500; an unknown id is a 404; otherwise exactly that record is removed and no record with the id remains |
| Auth.Login | website/auth.py:40-63 | without '@' a session starts exactly when a farmer with that username accepts the password; with '@' exactly when a user with that email does |
| Auth.AtSignFarmerCannotLogIn | website/auth.py:47 | a farmer whose username contains '@' never logs in |
| Auth.Register | website/auth.py:75-92 | mismatched passwords or a taken email add nothing; otherwise exactly one user is appended |
| Auth.SignUp | website/auth.py:66-94 | a "Barangay Staff" account with role "barangay" and the submitted barangay, or a redirect back with nothing added |
| Auth.SignUpMunicipal | website/auth.py:97-124 | a "Municipal Officer" account with role "municipal" and no barangay, or a redirect back with nothing added |

## Left out

- HTTP routing, sessions, `login_required`, templates and the GET branches that only render a form are not modelled. A handler's `Response` stands for them.
- Google OAuth login (`google_login`) and logout are not modelled: they are calls into an external identity provider and into the session layer.
- `website/api.py` and `website/__init__.py` (application setup) are not part of this model. `api.py` defines a second POST handler for the same URL, /api/sync, and its blueprint is registered before the main one, so as the application is wired that URL reaches `api.sync`, and the `api_sync` modelled here is not reached.
- `municipality_dashboard` and `municipality_analytics` are not modelled. They query `Municipality` and `Barangay` tables that the schema does not define.
- Floating point: weights are Dafny `real`, so rounding in the sums is not modelled.
- Password hashing and checking are parameters (`hash`, `check`); the hash functions themselves are not modelled.
- The clock is a parameter (`now`), standing for the database's `func.now()`.
- `strftime` follows the C locale: month names are the English ones. Per-month day validity and years outside 1..9999 are not modelled.
- Calendar.ParseMonthYear: accepts only the exact shape `strftime` writes, a capitalised name, one space and four digits. Python's `strptime` also ignores case and takes any run of whitespace for the space; every string the views parse comes from `strftime`, so those inputs never arise.
- Calendar.YearString: `%Y` is four zero-padded digits, as CPython documents it. CPython releases before the fix for gh-120713 hand `%Y` to the C library, and glibc writes a year below 1000 without padding. With such a year, "999" sorts after "2024" as a string, so `Ordering.MunicipalYearsAscending` fails; and `strptime`'s four-digit `%Y` rejects "May 999", so the month views fall back to first-seen order and `Ordering.MonthKeysChronological` fails. Both hold there only for years 1000..9999; sorting years with `int` is unaffected.
- Text.ParseInt: accepts an optional sign and ASCII digits only. Python's `int()` also strips surrounding whitespace and accepts underscores between digits and other Unicode decimal digits, so `int(" 5") == 5` while the model raises. A farmer id submitted with such text is refused by the model but accepted by the application.
- Store.Database: ids come from per-table counters that never hand out a value twice, as a PostgreSQL sequence does. Under the default SQLite backend a table without AUTOINCREMENT takes one more than the largest id in use, so deleting the newest record lets the next insert reuse its id. Uniqueness of ids holds either way; `Store.Numbered`'s start value is the counter, not SQLite's choice.
- Rows read without `order_by` come back in table order, which is insertion order here. Rows with equal timestamps keep their table order.
- Missing form fields are not modelled. A field read by subscript (`request.form['batch_name']` and the like) answers 400 in Flask. A field read with `.get()` is `None` when missing, and the handler then fails with a 500: at `'@' not in email` in `login`, and in `sign_up`, `sign_up_municipal` and `add_farmer` when the missing password is hashed or a NOT NULL column meets the commit. A numeric field that is present but holds text `float()` rejects (blank, or not a number) is passed on unchecked, and the `Float` column's conversion raises at the commit: a 500 with nothing stored (`Views.NumericRejected`, `Views.WeightRejected`).
- Views.ApiSync: every payload that raises before the commit is one `Unusable` case; the exception text in the 500 body is not modelled. Flask releases before 2.1 return `None` from `get_json()` when the content type is not JSON, which makes that case a 400 there.
- Views.ApiSync: weights are reals, so a weight sent as a JSON integer beyond 64 bits, which SQLite also refuses to bind at the commit (a 500), is modelled as an accepted number.
- The 64-bit limit on bound integers (`Store.FitsInteger`) is the default SQLite backend's; other database drivers treat out-of-range ids differently, and a table counter reaching the limit is not modelled.
- Views.ApiSync: date fields are taken as already converted to dates, which is what PostgreSQL does with the ISO strings the handler passes on. On the default SQLite backend the `Date` column's conversion raises `TypeError` for a string, so every sync item that carries a date makes the commit fail: the batch is rolled back with a 500, where the model stores it with a 200.
- A failed commit is modelled as leaving every table unchanged. The rollback's effect on the session's identity map is not modelled.
- Python truthiness of a `None` batch name is not modelled: `batch_name` is NOT NULL, so it is a string that may be empty.

=== FILE: aggregation.dfy ===
/**
 * The keyed folds behind the dashboards and analytics pages. Each view walks
 * its record list once and accumulates weights into an insertion-ordered
 * dictionary, here a `Chart`: the keys in first-seen order plus a map from key
 * to accumulated value. The folds are methods whose loops build the chart in
 * place; they are proved against prefix-recursive specification functions
 * (`GroupKeys`, `Total`), and the lemmas below say what those functions mean.
 * The second half models the final key sort each view applies, with its
 * fallback to first-seen order when a key does not parse.
 */
module Aggregation {
  import opened Wrappers
  import opened Models
  import opened Calendar
  import Text
  import Sorting

  /** The dimension a view groups by. */
  datatype Grouping =
    | ByBatch        // record.batch_name (farmer dashboard)
    | ByBarangay     // record.barangay_name (municipal total view)
    | ByFullMonth    // date_dried.strftime('%B %Y') (barangay monthly dashboard)
    | ByAbbrevMonth  // date_dried.strftime('%b %Y') (analytics by month)
    | ByYear         // date_dried.strftime('%Y') (analytics by year)

  const UnnamedBatch: string := "(Unnamed Batch)"

  /** The key a record is grouped under; `None` when the view skips the record. */
  function GroupKey(g: Grouping, r: DryingRecord): (k: Option<string>)
    ensures k.Some? ==> k.value != ""
    ensures g == ByBatch ==> k == Some(if r.batchName == "" then UnnamedBatch else r.batchName)
    ensures g == ByBarangay ==> (k.Some? <==> Truthy(r.barangayName)) && (k.Some? ==> k == r.barangayName)
    ensures g.ByFullMonth? || g.ByAbbrevMonth? || g.ByYear? ==> (k.Some? <==> r.dateDried.Some?)
    ensures g == ByFullMonth && r.dateDried.Some? ==> k == Some(FullMonthKey(r.dateDried.value))
    ensures g == ByAbbrevMonth && r.dateDried.Some? ==> k == Some(AbbrevMonthKey(r.dateDried.value))
    ensures g == ByYear && r.dateDried.Some? ==> k == Some(YearKey(r.dateDried.value))
  {
    match g
    case ByBatch => Some(if r.batchName == "" then UnnamedBatch else r.batchName)
    case ByBarangay => if Truthy(r.barangayName) then r.barangayName else None
    case ByFullMonth => if r.dateDried.Some? then Some(FullMonthKey(r.dateDried.value)) else None
    case ByAbbrevMonth => if r.dateDried.Some? then Some(AbbrevMonthKey(r.dateDried.value)) else None
    case ByYear => if r.dateDried.Some? then Some(YearKey(r.dateDried.value)) else None
  }

  /** Which weight a fold adds for one record. */
  datatype Measure =
    | Initial            // initial_weight, when float() accepts it
    | FinalAfterInitial  // final_weight, tried only after initial_weight converted
    | Final              // final_weight on its own

  /**
   * What one record adds to its bucket under `m`. In the two-weight loops the
   * initial weight is added first, so a record whose final weight fails still
   * counts its initial weight, and one whose initial weight fails adds nothing.
   */
  function Amount(m: Measure, r: DryingRecord): (a: real)
    ensures m == Initial ==> a == Float(r.initialWeight).GetOr(0.0)
    ensures m == Final ==> a == Float(r.finalWeight).GetOr(0.0)
    ensures m == FinalAfterInitial ==>
      a == if r.initialWeight.Num? then Float(r.finalWeight).GetOr(0.0) else 0.0
  {
    match m
    case Initial => Float(r.initialWeight).GetOr(0.0)
    case Final => Float(r.finalWeight).GetOr(0.0)
    case FinalAfterInitial =>
      if Float(r.initialWeight).None? then 0.0 else Float(r.finalWeight).GetOr(0.0)
  }

  /** The keys of the grouped records, each once, in the order first seen. */
  function GroupKeys(rs: seq<DryingRecord>, g: Grouping): (ks: seq<string>)
    ensures Sorting.Distinct(ks)
  {
    if rs == [] then []
    else
      var ks := GroupKeys(rs[..|rs| - 1], g);
      var key := GroupKey(g, rs[|rs| - 1]);
      if key.Some? && key.value !in ks then ks + [key.value] else ks
  }

  /**
   * Every grouped record's key is a bucket, whether or not its weights
   * convert, and every bucket comes from some grouped record.
   */
  lemma {:induction false} GroupKeysAreGroupedKeys(rs: seq<DryingRecord>, g: Grouping, k: string)
    ensures k in GroupKeys(rs, g) <==> exists i :: 0 <= i < |rs| && GroupKey(g, rs[i]) == Some(k)
  {
    if rs != [] {
      var init, r := rs[..|rs| - 1], rs[|rs| - 1];
      assert rs == init + [r];
      GroupKeysStep(init, r, g);
      GroupKeysAreGroupedKeys(init, g, k);
      if k in GroupKeys(rs, g) {
        if k in GroupKeys(init, g) {
          var i :| 0 <= i < |init| && GroupKey(g, init[i]) == Some(k);
          assert rs[i] == init[i];
        } else {
          assert GroupKey(g, rs[|rs| - 1]) == Some(k);
        }
      } else {
        forall i | 0 <= i < |rs|
          ensures GroupKey(g, rs[i]) != Some(k)
        {
          if i < |init| {
            assert rs[i] == init[i];
          }
        }
      }
    }
  }

  /** Bucket `k`'s total under `m`: the sum of `Amount` over the records grouped under `k`. */
  function Total(rs: seq<DryingRecord>, g: Grouping, m: Measure, k: string): real {
    if rs == [] then 0.0
    else
      var r := rs[|rs| - 1];
      Total(rs[..|rs| - 1], g, m, k) + (if GroupKey(g, r) == Some(k) then Amount(m, r) else 0.0)
  }

  /** The sum of `Amount` over every record the view groups (whatever its key). */
  function GroupedSum(rs: seq<DryingRecord>, g: Grouping, m: Measure): real {
    if rs == [] then 0.0
    else
      var r := rs[|rs| - 1];
      GroupedSum(rs[..|rs| - 1], g, m) + (if GroupKey(g, r).Some? then Amount(m, r) else 0.0)
  }

  /** The bucket totals of `ks` added up. */
  function SumOver(ks: seq<string>, rs: seq<DryingRecord>, g: Grouping, m: Measure): real {
    if ks == [] then 0.0 else SumOver(ks[..|ks| - 1], rs, g, m) + Total(rs, g, m, ks[|ks| - 1])
  }

  lemma TotalStep(rs: seq<DryingRecord>, r: DryingRecord, g: Grouping, m: Measure, k: string)
    ensures Total(rs + [r], g, m, k) == Total(rs, g, m, k) + (if GroupKey(g, r) == Some(k) then Amount(m, r) else 0.0)
  {
    assert (rs + [r])[..|rs|] == rs;
  }

  lemma GroupKeysStep(rs: seq<DryingRecord>, r: DryingRecord, g: Grouping)
    ensures GroupKeys(rs + [r], g) ==
      if GroupKey(g, r).Some? && GroupKey(g, r).value !in GroupKeys(rs, g)
      then GroupKeys(rs, g) + [GroupKey(g, r).value] else GroupKeys(rs, g)
  {
    assert (rs + [r])[..|rs|] == rs;
  }

  /** A key no record is grouped under has an empty bucket. */
  lemma {:induction false} TotalOutsideKeys(rs: seq<DryingRecord>, g: Grouping, m: Measure, k: string)
    requires k !in GroupKeys(rs, g)
    ensures Total(rs, g, m, k) == 0.0
  {
    if rs != [] {
      var init := rs[..|rs| - 1];
      assert rs == init + [rs[|rs| - 1]];
      GroupKeysStep(init, rs[|rs| - 1], g);
      TotalOutsideKeys(init, g, m, k);
    }
  }

  lemma {:induction false} SumOverStep(ks: seq<string>, rs: seq<DryingRecord>, r: DryingRecord, g: Grouping, m: Measure)
    requires Sorting.Distinct(ks)
    ensures SumOver(ks, rs + [r], g, m) ==
      SumOver(ks, rs, g, m) + (if GroupKey(g, r).Some? && GroupKey(g, r).value in ks then Amount(m, r) else 0.0)
  {
    if ks != [] {
      var init, last := ks[..|ks| - 1], ks[|ks| - 1];
      assert ks == init + [last];
      SumOverStep(init, rs, r, g, m);
      TotalStep(rs, r, g, m, last);
    }
  }

  /**
   * Grouping loses and double counts nothing: the bucket totals, added up
   * over all keys, equal the sum over every grouped record of what `float()`
   * accepted from it.
   */
  lemma {:induction false} BucketsPartitionGroupedSum(rs: seq<DryingRecord>, g: Grouping, m: Measure)
    ensures SumOver(GroupKeys(rs, g), rs, g, m) == GroupedSum(rs, g, m)
  {
    if rs != [] {
      var init, r := rs[..|rs| - 1], rs[|rs| - 1];
      assert rs == init + [r];
      var ks := GroupKeys(init, g);
      var key := GroupKey(g, r);
      var a := if key.Some? then Amount(m, r) else 0.0;
      assert GroupedSum(rs, g, m) == GroupedSum(init, g, m) + a;
      BucketsPartitionGroupedSum(init, g, m);
      assert SumOver(ks, rs, g, m) == SumOver(ks, init, g, m) + (if key.Some? && key.value in ks then a else 0.0) by {
        SumOverStep(ks, init, r, g, m);
      }
      if key.Some? && key.value !in ks {
        assert GroupKeys(rs, g) == ks + [key.value] by {
          GroupKeysStep(init, r, g);
        }
        assert SumOver(ks + [key.value], rs, g, m) == SumOver(ks, rs, g, m) + Total(rs, g, m, key.value) by {
          assert (ks + [key.value])[..|ks|] == ks;
        }
        assert Total(rs, g, m, key.value) == a by {
          TotalStep(init, r, g, m, key.value);
          TotalOutsideKeys(init, g, m, key.value);
        }
      } else {
        assert GroupKeys(rs, g) == ks by {
          GroupKeysStep(init, r, g);
        }
      }
    }
  }

  /** Both weights of one bucket. */
  datatype Weights = Weights(initial: real, final: real)

  /** An insertion-ordered dictionary: `keys` in order, `values` by key. */
  datatype Chart<V> = Chart(keys: seq<string>, values: map<string, V>)

  ghost predicate WellFormed<V>(c: Chart<V>) {
    Sorting.Distinct(c.keys) && forall k :: k in c.values <==> k in c.keys
  }

  /** Every bucket of the two-weight loop holds its key's two totals over `rs`. */
  ghost predicate WeightsAgree(rs: seq<DryingRecord>, g: Grouping, values: map<string, Weights>) {
    forall k :: k in values ==> values[k] == Weights(Total(rs, g, Initial, k), Total(rs, g, FinalAfterInitial, k))
  }

  /** Every bucket of a yield loop holds its key's final-weight total over `rs`. */
  ghost predicate YieldAgree(rs: seq<DryingRecord>, g: Grouping, values: map<string, real>) {
    forall k :: k in values ==> values[k] == Total(rs, g, Final, k)
  }

  /** `keys`/`values` are what the two-weight loop holds after the records `rs`. */
  ghost predicate WeightsFolded(rs: seq<DryingRecord>, g: Grouping, keys: seq<string>, values: map<string, Weights>) {
    && keys == GroupKeys(rs, g)
    && (forall k :: k in values <==> k in keys)
    && WeightsAgree(rs, g, values)
  }

  /** `keys`/`values` are what a yield loop holds after the records `rs`. */
  ghost predicate YieldFolded(rs: seq<DryingRecord>, g: Grouping, keys: seq<string>, values: map<string, real>) {
    && keys == GroupKeys(rs, g)
    && (forall k :: k in values <==> k in keys)
    && YieldAgree(rs, g, values)
  }

  /**
   * One iteration's effect on the keys: the record's key is appended when its
   * bucket is new, and the buckets stay exactly the keys.
   */
  lemma ChartKeysStep<V>(rs: seq<DryingRecord>, r: DryingRecord, g: Grouping, keys: seq<string>, values: map<string, V>,
                         keys': seq<string>, created: map<string, V>, zero: V)
    requires keys == GroupKeys(rs, g) && (forall k :: k in values <==> k in keys) && GroupKey(g, r).Some?
    requires var k := GroupKey(g, r).value;
      && keys' == (if k in values then keys else keys + [k])
      && created == (if k in values then values else values[k := zero])
    ensures keys' == GroupKeys(rs + [r], g)
    ensures forall k :: k in created <==> k in keys'
  {
    GroupKeysStep(rs, r, g);
  }

  /** A bucket created at zero for a key not seen yet agrees with its (empty) totals. */
  lemma WeightsCreateStep(rs: seq<DryingRecord>, g: Grouping, values: map<string, Weights>, k: string)
    requires WeightsAgree(rs, g, values) && k !in GroupKeys(rs, g)
    ensures WeightsAgree(rs, g, values[k := Weights(0.0, 0.0)])
  {
    TotalOutsideKeys(rs, g, Initial, k);
    TotalOutsideKeys(rs, g, FinalAfterInitial, k);
  }

  lemma YieldCreateStep(rs: seq<DryingRecord>, g: Grouping, values: map<string, real>, k: string)
    requires YieldAgree(rs, g, values) && k !in GroupKeys(rs, g)
    ensures YieldAgree(rs, g, values[k := 0.0])
  {
    TotalOutsideKeys(rs, g, Final, k);
  }

  /** Adding `r`'s two amounts to its own bucket keeps every bucket at its totals. */
  lemma WeightsAddStep(rs: seq<DryingRecord>, r: DryingRecord, g: Grouping, values: map<string, Weights>, k: string)
    requires WeightsAgree(rs, g, values) && GroupKey(g, r) == Some(k) && k in values
    ensures WeightsAgree(rs + [r], g,
      values[k := Weights(values[k].initial + Amount(Initial, r), values[k].final + Amount(FinalAfterInitial, r))])
  {
    var values' := values[k := Weights(values[k].initial + Amount(Initial, r), values[k].final + Amount(FinalAfterInitial, r))];
    forall k' | k' in values'
      ensures values'[k'] == Weights(Total(rs + [r], g, Initial, k'), Total(rs + [r], g, FinalAfterInitial, k'))
    {
      TotalStep(rs, r, g, Initial, k');
      TotalStep(rs, r, g, FinalAfterInitial, k');
    }
  }

  lemma YieldAddStep(rs: seq<DryingRecord>, r: DryingRecord, g: Grouping, values: map<string, real>, k: string)
    requires YieldAgree(rs, g, values) && GroupKey(g, r) == Some(k) && k in values
    ensures YieldAgree(rs + [r], g, values[k := values[k] + Amount(Final, r)])
  {
    var values' := values[k := values[k] + Amount(Final, r)];
    forall k' | k' in values'
      ensures values'[k'] == Total(rs + [r], g, Final, k')
    {
      TotalStep(rs, r, g, Final, k');
    }
  }

  /** A record the two-weight loop skips leaves its state as it was. */
  lemma WeightsSkipStep(rs: seq<DryingRecord>, r: DryingRecord, g: Grouping, keys: seq<string>, values: map<string, Weights>)
    requires WeightsFolded(rs, g, keys, values) && GroupKey(g, r).None?
    ensures WeightsFolded(rs + [r], g, keys, values)
  {
    GroupKeysStep(rs, r, g);
    forall k | k in values
      ensures values[k] == Weights(Total(rs + [r], g, Initial, k), Total(rs + [r], g, FinalAfterInitial, k))
    {
      TotalStep(rs, r, g, Initial, k);
      TotalStep(rs, r, g, FinalAfterInitial, k);
    }
  }

  /** A record a yield loop skips leaves its state as it was. */
  lemma YieldSkipStep(rs: seq<DryingRecord>, r: DryingRecord, g: Grouping, keys: seq<string>, values: map<string, real>)
    requires YieldFolded(rs, g, keys, values) && GroupKey(g, r).None?
    ensures YieldFolded(rs + [r], g, keys, values)
  {
    GroupKeysStep(rs, r, g);
    forall k | k in values
      ensures values[k] == Total(rs + [r], g, Final, k)
    {
      TotalStep(rs, r, g, Final, k);
    }
  }

  /**
   * The `try` block of the two-weight loops: add the initial weight, then the
   * final weight; a conversion that fails abandons the rest of the block.
   */
  method AddWeights(values: map<string, Weights>, k: string, r: DryingRecord) returns (values': map<string, Weights>)
    requires k in values
    ensures values' == values[k := Weights(values[k].initial + Amount(Initial, r), values[k].final + Amount(FinalAfterInitial, r))]
  {
    values' := values;
    match Float(r.initialWeight) {
      case Some(a) =>
        values' := values'[k := values'[k].(initial := values'[k].initial + a)];
        match Float(r.finalWeight) {
          case Some(b) =>
            values' := values'[k := values'[k].(final := values'[k].final + b)];
          case None =>
        }
      case None =>
    }
  }

  /** The `try` block of the yield loops: add the final weight when it converts. */
  method AddYield(values: map<string, real>, k: string, r: DryingRecord) returns (values': map<string, real>)
    requires k in values
    ensures values' == values[k := values[k] + Amount(Final, r)]
  {
    values' := values;
    match Float(r.finalWeight) {
      case Some(b) => values' := values'[k := values'[k] + b];
      case None =>
    }
  }

  /**
   * One pass of the two-weight loop body: a bucket is created for the record's
   * key before its weights are converted; a record the view skips changes nothing.
   */
  method FoldWeights(ghost pre: seq<DryingRecord>, r: DryingRecord, g: Grouping, keys: seq<string>, values: map<string, Weights>)
    returns (keys': seq<string>, values': map<string, Weights>)
    requires WeightsFolded(pre, g, keys, values)
    ensures WeightsFolded(pre + [r], g, keys', values')
  {
    keys', values' := keys, values;
    var key := GroupKey(g, r);
    if key.Some? {
      var k := key.value;
      if k !in values' {
        keys' := keys' + [k];
        values' := values'[k := Weights(0.0, 0.0)];
        WeightsCreateStep(pre, g, values, k);
      }
      ChartKeysStep(pre, r, g, keys, values, keys', values', Weights(0.0, 0.0));
      WeightsAddStep(pre, r, g, values', k);
      values' := AddWeights(values', k, r);
    } else {
      WeightsSkipStep(pre, r, g, keys, values);
    }
  }

  /** One pass of the guarded yield loop body. */
  method FoldYield(ghost pre: seq<DryingRecord>, r: DryingRecord, g: Grouping, keys: seq<string>, values: map<string, real>)
    returns (keys': seq<string>, values': map<string, real>)
    requires YieldFolded(pre, g, keys, values)
    ensures YieldFolded(pre + [r], g, keys', values')
  {
    keys', values' := keys, values;
    var key := GroupKey(g, r);
    if key.Some? {
      var k := key.value;
      if k !in values' {
        keys' := keys' + [k];
        values' := values'[k := 0.0];
        YieldCreateStep(pre, g, values, k);
      }
      ChartKeysStep(pre, r, g, keys, values, keys', values', 0.0);
      YieldAddStep(pre, r, g, values', k);
      values' := AddYield(values', k, r);
    } else {
      YieldSkipStep(pre, r, g, keys, values);
    }
  }

  /**
   * The guarded two-weight loop of `dashboard` and `barangay_dashboard`: a
   * bucket is created for every grouped record before its weights are
   * converted; a weight `float()` rejects is skipped.
   */
  method GroupWeights(records: seq<DryingRecord>, g: Grouping) returns (c: Chart<Weights>)
    ensures WellFormed(c) && c.keys == GroupKeys(records, g)
    ensures forall k :: k in c.values ==>
      c.values[k] == Weights(Total(records, g, Initial, k), Total(records, g, FinalAfterInitial, k))
  {
    var keys: seq<string> := [];
    var values: map<string, Weights> := map[];
    var i := 0;
    while i < |records|
      invariant 0 <= i <= |records|
      invariant WeightsFolded(records[..i], g, keys, values)
    {
      assert records[..i + 1] == records[..i] + [records[i]];
      keys, values := FoldWeights(records[..i], records[i], g, keys, values);
      i := i + 1;
    }
    assert records[..|records|] == records;
    c := Chart(keys, values);
  }

  /**
   * The guarded yield loop of `farmer_analytics`: a bucket per grouped record,
   * plus its final weight when `float()` accepts it.
   */
  method GroupYield(records: seq<DryingRecord>, g: Grouping) returns (c: Chart<real>)
    ensures WellFormed(c) && c.keys == GroupKeys(records, g)
    ensures forall k :: k in c.values ==> c.values[k] == Total(records, g, Final, k)
  {
    var keys: seq<string> := [];
    var values: map<string, real> := map[];
    var i := 0;
    while i < |records|
      invariant 0 <= i <= |records|
      invariant YieldFolded(records[..i], g, keys, values)
    {
      assert records[..i + 1] == records[..i] + [records[i]];
      keys, values := FoldYield(records[..i], records[i], g, keys, values);
      i := i + 1;
    }
    assert records[..|records|] == records;
    c := Chart(keys, values);
  }

  /** Some grouped record has a final weight `float()` rejects. */
  predicate HasBadGroupedWeight(records: seq<DryingRecord>, g: Grouping) {
    exists i :: 0 <= i < |records| && GroupKey(g, records[i]).Some? && records[i].finalWeight.NonNumeric?
  }

  /** A record that passes the check keeps a clean prefix clean. */
  lemma NoBadGroupedWeightStep(rs: seq<DryingRecord>, r: DryingRecord, g: Grouping)
    requires !HasBadGroupedWeight(rs, g)
    requires !(GroupKey(g, r).Some? && r.finalWeight.NonNumeric?)
    ensures !HasBadGroupedWeight(rs + [r], g)
  {
    forall j | 0 <= j < |rs|
      ensures (rs + [r])[j] == rs[j]
    {
    }
  }

  /**
   * The unguarded yield loop of `barangay_analytics` and `analytics`: the
   * first grouped record whose final weight `float()` rejects raises out of
   * the view (`None`); otherwise the same chart as the guarded loop.
   */
  method GroupYieldOrAbort(records: seq<DryingRecord>, g: Grouping) returns (r: Option<Chart<real>>)
    ensures r.None? <==> HasBadGroupedWeight(records, g)
    ensures r.Some? ==> WellFormed(r.value) && r.value.keys == GroupKeys(records, g)
    ensures r.Some? ==> forall k :: k in r.value.values ==> r.value.values[k] == Total(records, g, Final, k)
  {
    var keys: seq<string> := [];
    var values: map<string, real> := map[];
    var i := 0;
    while i < |records|
      invariant 0 <= i <= |records|
      invariant !HasBadGroupedWeight(records[..i], g)
      invariant YieldFolded(records[..i], g, keys, values)
    {
      var rec := records[i];
      if GroupKey(g, rec).Some? && rec.finalWeight.NonNumeric? {
        return None;
      }
      assert records[..i + 1] == records[..i] + [rec];
      keys, values := FoldYield(records[..i], rec, g, keys, values);
      NoBadGroupedWeightStep(records[..i], rec, g);
      i := i + 1;
    }
    assert records[..|records|] == records;
    r := Some(Chart(keys, values));
  }
}

=== FILE: auth.dfy ===
/**
 * The authentication blueprint: password login, which looks an identifier up
 * either as a farmer username or as a staff email, and the two staff sign-up
 * forms. Password hashing and checking are parameters: `hash` stands for
 * `generate_password_hash` and `check(stored, given)` for `check_password_hash`.
 */
module Auth {
  import opened Wrappers
  import opened Models
  import opened Store
  import opened Http

  /** Where a login attempt leads, and the account it logs in, if any. */
  datatype LoginResult = LoginResult(session: Option<Principal>, target: Target)

  /**
   * `login` (POST). An identifier without '@' is only ever a farmer username,
   * one with '@' only ever a staff email; a session starts exactly when that
   * lookup finds an account whose stored hash accepts the password.
   */
  function Login(users: seq<User>, farmers: seq<Farmer>, identifier: string, password: string,
                 check: (string, string) -> bool): (r: LoginResult)
    requires UniqueEmails(users) && UniqueUsernames(farmers)
    ensures r.target == (if r.session.Some? then DashboardPage else LoginPage)
    ensures '@' !in identifier ==>
      (r.session.Some? <==> exists f :: f in farmers && f.username == identifier && check(f.password, password))
    ensures '@' !in identifier && r.session.Some? ==>
      r.session.value.FarmerPrincipal? && r.session.value.farmer in farmers &&
      r.session.value.farmer.username == identifier && check(r.session.value.farmer.password, password)
    ensures '@' in identifier ==>
      (r.session.Some? <==> exists u :: u in users && u.email == identifier && check(u.password, password))
    ensures '@' in identifier && r.session.Some? ==>
      r.session.value.UserPrincipal? && r.session.value.user in users &&
      r.session.value.user.email == identifier && check(r.session.value.user.password, password)
  {
    if '@' !in identifier then
      match FindFarmer(farmers, Username(identifier))
      case Some(f) =>
        assert forall g :: g in farmers && g.username == identifier ==> g == f;
        if check(f.password, password) then LoginResult(Some(FarmerPrincipal(f)), DashboardPage)
        else LoginResult(None, LoginPage)
      case None => LoginResult(None, LoginPage)
    else
      match FindUserByEmail(users, identifier)
      case Some(u) =>
        assert forall v :: v in users && v.email == identifier ==> v == u;
        if check(u.password, password) then LoginResult(Some(UserPrincipal(u)), DashboardPage)
        else LoginResult(None, LoginPage)
      case None => LoginResult(None, LoginPage)
  }

  /** A farmer whose username contains '@' is looked up as an email, so never logs in. */
  lemma AtSignFarmerCannotLogIn(users: seq<User>, farmers: seq<Farmer>, f: Farmer, password: string,
                                check: (string, string) -> bool)
    requires UniqueEmails(users) && UniqueUsernames(farmers)
    requires '@' in f.username
    ensures Login(users, farmers, f.username, password, check).session != Some(FarmerPrincipal(f))
  {
  }

  /** The staff sign-up forms; the municipal form has no barangay field. */
  datatype SignUpForm = SignUpForm(
    email: string,
    barangayName: Option<string>,
    municipality: Option<string>,
    password1: string,
    password2: string)

  /**
   * Shared by both sign-up forms: mismatched passwords, then a taken email,
   * send the caller back to `retry`; otherwise one user is added with the
   * given name, role and barangay, and the caller goes to the login page.
   */
  method Register(db: Database, form: SignUpForm, fullName: string, role: string, barangayName: Option<string>,
                  retry: Target, hash: string -> string) returns (resp: Response<()>)
    requires db.Valid()
    modifies db
    ensures db.Valid()
    ensures db.farmers == old(db.farmers) && db.records == old(db.records)
    ensures db.nextFarmerId == old(db.nextFarmerId) && db.nextRecordId == old(db.nextRecordId)
    ensures db.nextUserId == old(db.nextUserId) + (|db.users| - |old(db.users)|)
    ensures form.password1 != form.password2 ==> resp == Redirect(retry) && db.users == old(db.users)
    ensures form.password1 == form.password2 && FindUserByEmail(old(db.users), form.email).Some? ==>
      resp == Redirect(retry) && db.users == old(db.users)
    ensures form.password1 == form.password2 && FindUserByEmail(old(db.users), form.email).None? ==>
      && resp == Redirect(LoginPage)
      && db.users == old(db.users) + [User(old(db.nextUserId), form.email, fullName, role, barangayName, hash(form.password1))]
  {
    if form.password1 != form.password2 {
      return Redirect(retry);
    }
    if FindUserByEmail(db.users, form.email).Some? {
      return Redirect(retry);
    }
    var user := User(0, form.email, fullName, role, barangayName, hash(form.password1));
    var stored := db.AddUser(user);
    return Redirect(LoginPage);
  }

  /** `sign_up`: a barangay staff account with the submitted barangay; the municipality is not stored. */
  method SignUp(db: Database, form: SignUpForm, hash: string -> string) returns (resp: Response<()>)
    requires db.Valid()
    modifies db
    ensures db.Valid()
    ensures db.farmers == old(db.farmers) && db.records == old(db.records)
    ensures db.nextFarmerId == old(db.nextFarmerId) && db.nextRecordId == old(db.nextRecordId)
    ensures db.nextUserId == old(db.nextUserId) + (|db.users| - |old(db.users)|)
    ensures form.password1 != form.password2 || FindUserByEmail(old(db.users), form.email).Some? ==>
      resp == Redirect(SignUpPage) && db.users == old(db.users)
    ensures form.password1 == form.password2 && FindUserByEmail(old(db.users), form.email).None? ==>
      && resp == Redirect(LoginPage)
      && db.users == old(db.users) +
           [User(old(db.nextUserId), form.email, "Barangay Staff", "barangay", form.barangayName, hash(form.password1))]
  {
    resp := Register(db, form, "Barangay Staff", "barangay", form.barangayName, SignUpPage, hash);
  }

  /** `sign_up_municipal`: a municipal staff account with no barangay. */
  method SignUpMunicipal(db: Database, form: SignUpForm, hash: string -> string) returns (resp: Response<()>)
    requires db.Valid()
    modifies db
    ensures db.Valid()
    ensures db.farmers == old(db.farmers) && db.records == old(db.records)
    ensures db.nextFarmerId == old(db.nextFarmerId) && db.nextRecordId == old(db.nextRecordId)
    ensures db.nextUserId == old(db.nextUserId) + (|db.users| - |old(db.users)|)
    ensures form.password1 != form.password2 || FindUserByEmail(old(db.users), form.email).Some? ==>
      resp == Redirect(MunicipalSignUpPage) && db.users == old(db.users)
    ensures form.password1 == form.password2 && FindUserByEmail(old(db.users), form.email).None? ==>
      && resp == Redirect(LoginPage)
      && db.users == old(db.users) +
           [User(old(db.nextUserId), form.email, "Municipal Officer", "municipal", None, hash(form.password1))]
  {
    resp := Register(db, form, "Municipal Officer", "municipal", None, MunicipalSignUpPage, hash);
  }
}

=== FILE: calendar.dfy ===
/**
 * Calendar dates and the three grouping keys the views derive from them with
 * `strftime` under the C locale ("%B %Y", "%b %Y", "%Y"), together with the
 * `strptime` / `int()` readings the views use to sort those keys again.
 */
module Calendar {
  import opened Wrappers
  import Text

  type Year = y: int | 1 <= y <= 9999 witness 1
  type Month = m: int | 1 <= m <= 12 witness 1
  type Day = d: int | 1 <= d <= 31 witness 1

  /** A Python `datetime.date`. */
  datatype Date = Date(year: Year, month: Month, day: Day)

  /** `%B` in the C locale. */
  const MonthNames: seq<string> := ["January", "February", "March", "April", "May", "June",
    "July", "August", "September", "October", "November", "December"]

  /** `%b` in the C locale. */
  const MonthAbbreviations: seq<string> := ["Jan", "Feb", "Mar", "Apr", "May", "Jun",
    "Jul", "Aug", "Sep", "Oct", "Nov", "Dec"]

  /** Twelve distinct names, each starting with a capital letter. */
  predicate NameTable(names: seq<string>) {
    && |names| == 12
    && (forall i :: 0 <= i < 12 ==> |names[i]| > 0 && 'A' <= names[i][0] <= 'Z')
    && (forall i, j :: 0 <= i < j < 12 ==> names[i] != names[j])
  }

  lemma TablesWellFormed()
    ensures NameTable(MonthNames) && NameTable(MonthAbbreviations)
  {
  }

  /** `strftime('%Y')`: the year as four digits, zero padded. */
  function YearString(y: Year): (s: string)
    ensures |s| == 4 && Text.AllDigits(s)
  {
    [Text.DigitChar(y / 1000), Text.DigitChar(y / 100 % 10), Text.DigitChar(y / 10 % 10), Text.DigitChar(y % 10)]
  }

  lemma YearStringValue(y: Year)
    ensures Text.DigitsValue(YearString(y)) == y
  {
    var s := YearString(y);
    var q := y / 10;
    assert y == q * 10 + y % 10;
    assert q / 10 == y / 100 && q % 10 == y / 10 % 10;
    assert (y / 100) / 10 == y / 1000 && (y / 100) % 10 == y / 100 % 10;
    assert Text.DigitsValue(s[..1]) == y / 1000;
    assert Text.DigitsValue(s[..2]) == y / 100;
    assert s[..3][..2] == s[..2] && s[..2][..1] == s[..1] && s[..1][..0] == s[..0];
    assert q == (q / 10) * 10 + q % 10;
    assert Text.DigitsValue(s[..3]) == q;
    assert s[..4] == s;
  }

  /** `strftime('<month format> %Y')` where `names` is the month format's table. */
  function MonthYearString(names: seq<string>, d: Date): (s: string)
    requires |names| == 12
  {
    names[d.month - 1] + " " + YearString(d.year)
  }

  /** `date.strftime('%B %Y')`, e.g. "May 2024" or "January 2024"; `strptime` with the same format reads it back. */
  function FullMonthKey(d: Date): (k: string)
    ensures ParseMonthYear(MonthNames, k) == Some((d.year as int, d.month as int))
  {
    TablesWellFormed();
    MonthYearRoundTrip(MonthNames, d);
    MonthYearString(MonthNames, d)
  }

  /** `date.strftime('%b %Y')`, e.g. "Jan 2024"; `strptime` with the same format reads it back. */
  function AbbrevMonthKey(d: Date): (k: string)
    ensures ParseMonthYear(MonthAbbreviations, k) == Some((d.year as int, d.month as int))
  {
    TablesWellFormed();
    MonthYearRoundTrip(MonthAbbreviations, d);
    MonthYearString(MonthAbbreviations, d)
  }

  /** `date.strftime('%Y')`, e.g. "2024": four digits that `int` reads back as the year. */
  function YearKey(d: Date): (k: string)
    ensures |k| == 4 && Text.AllDigits(k)
    ensures Text.ParseInt(k) == Some(d.year as int)
  {
    YearStringValue(d.year);
    YearString(d.year)
  }

  /** `s` is `name`, one space and exactly four digits: what `strptime` accepts for that month. */
  predicate MatchesMonth(name: string, s: string) {
    |s| == |name| + 5 && s[..|name|] == name && s[|name|] == ' ' && Text.AllDigits(s[|name| + 1..])
  }

  /**
   * `datetime.strptime(s, '<month format> %Y')` reduced to the (year, month)
   * it yields; `None` stands for the `ValueError` it raises.
   */
  function ParseMonthYear(names: seq<string>, s: string): (r: Option<(int, int)>)
    ensures r.Some? ==> 1 <= r.value.0 <= 9999 && 1 <= r.value.1 <= |names|
    ensures r.Some? ==> s == names[r.value.1 - 1] + " " + YearString(r.value.0)
  {
    ParseMonthYearFrom(names, s, 0)
  }

  /** The month names from index `i` on; a match is accepted only if it is exactly what `strftime` writes. */
  function ParseMonthYearFrom(names: seq<string>, s: string, i: nat): (r: Option<(int, int)>)
    ensures r.Some? ==> 1 <= r.value.0 <= 9999 && i < r.value.1 <= |names|
    ensures r.Some? ==> s == names[r.value.1 - 1] + " " + YearString(r.value.0)
    decreases |names| - i
  {
    if i >= |names| then None
    else if MatchesMonth(names[i], s) then
      var t := s[|names[i]| + 1..];
      var y := Text.DigitsValue(t);
      if y == 0 then None
      else
        FourDigitsAreYearString(t);
        assert s == names[i] + " " + t;
        Some((y, i + 1))
    else ParseMonthYearFrom(names, s, i + 1)
  }

  /** Four digits denoting a non-zero number are that number's `YearString`. */
  lemma FourDigitsAreYearString(t: string)
    requires |t| == 4 && Text.AllDigits(t) && Text.DigitsValue(t) != 0
    ensures Text.DigitsValue(t) <= 9999
    ensures YearString(Text.DigitsValue(t)) == t
  {
    Text.DigitsValueBound(t);
    assert Text.Pow10(4) == 10000;
    var y := Text.DigitsValue(t);
    YearStringValue(y);
    if YearString(y) != t {
      Text.LexLtConnected(YearString(y), t);
      Text.LexLtDigits(YearString(y), t);
      Text.LexLtDigits(t, YearString(y));
    }
  }

  lemma MatchesOnlyItsOwnName(names: seq<string>, i: nat, j: nat, t: string)
    requires NameTable(names) && i < 12 && j < 12 && |t| == 4
    requires MatchesMonth(names[i], names[j] + " " + t)
    ensures i == j
  {
    var s := names[j] + " " + t;
    assert s[..|names[j]|] == names[j];
  }

  lemma {:induction false} ParseMonthYearFromFinds(names: seq<string>, d: Date, i: nat)
    requires NameTable(names) && i <= d.month - 1
    ensures ParseMonthYearFrom(names, MonthYearString(names, d), i) == Some((d.year as int, d.month as int))
    decreases 12 - i
  {
    var s := MonthYearString(names, d);
    var n := names[i];
    if i == d.month - 1 {
      assert s[..|n|] == n;
      assert s[|n| + 1..] == YearString(d.year);
      YearStringValue(d.year);
    } else {
      if MatchesMonth(n, s) {
        MatchesOnlyItsOwnName(names, i, d.month - 1, YearString(d.year));
      }
      ParseMonthYearFromFinds(names, d, i + 1);
    }
  }

  /** Every key built with a month format reads back with the same format to its own month. */
  lemma MonthYearRoundTrip(names: seq<string>, d: Date)
    requires NameTable(names)
    ensures ParseMonthYear(names, MonthYearString(names, d)) == Some((d.year as int, d.month as int))
  {
    ParseMonthYearFromFinds(names, d, 0);
  }

  /** `int(date.strftime('%b %Y'))` raises: the key starts with a letter. */
  lemma AbbrevMonthKeyIsNotInteger(d: Date)
    ensures Text.ParseInt(AbbrevMonthKey(d)) == None
  {
    TablesWellFormed();
    var s := AbbrevMonthKey(d);
    assert s[0] == MonthAbbreviations[d.month - 1][0];
  }

  /** Position of a month on a single time line; orders like `datetime(year, month, 1)`. */
  function MonthRank(year: int, month: int): int {
    year * 12 + (month - 1)
  }

  lemma MonthRankOrder(y1: int, m1: int, y2: int, m2: int)
    requires 1 <= m1 <= 12 && 1 <= m2 <= 12
    ensures MonthRank(y1, m1) < MonthRank(y2, m2) <==> y1 < y2 || (y1 == y2 && m1 < m2)
    ensures MonthRank(y1, m1) == MonthRank(y2, m2) <==> y1 == y2 && m1 == m2
  {
  }
}

=== FILE: http.dfy ===
/** What a request handler answers, in place of HTML, JSON and URLs. */
module Http {

  /** The pages a handler redirects to (`url_for` targets). */
  datatype Target =
    | DashboardPage          // views.dashboard
    | BarangayDashboardPage  // views.barangay_dashboard
    | RecordsPage            // views.records
    | FarmersPage            // views.farmers
    | LoginPage              // auth.login
    | SignUpPage             // auth.sign_up
    | MunicipalSignUpPage    // auth.sign_up_municipal

  /**
   * `Render(page)`: a template rendered with `page` as its data.
   * `Redirect(target)`: a redirect. `Status(code)`: a JSON answer with that
   * HTTP status, or an error status raised out of the handler.
   */
  datatype Response<T> = Render(page: T) | Redirect(target: Target) | Status(code: int)
}

=== FILE: models.dfy ===
/**
 * The three tables of the tracker (staff users, farmers, drying records) as
 * values, and the identity helpers defined on them: a farmer's full name, the
 * type-tagged session identifiers and the role each kind of principal reports.
 * A nullable column is an `Option`; a non-null one is a plain value.
 */
module Models {
  import opened Wrappers
  import Text
  import opened Calendar

  /**
   * What a `Float` column's conversion makes of a value with `float()`: a
   * number, or a value `float()` rejects. The handlers pass submitted text on
   * unchecked, but the conversion at the commit raises on a rejected value, so
   * a stored `NonNumeric` can only come from rows written outside them.
   */
  datatype Numeric = Num(value: real) | NonNumeric

  /** `float(v)`; `None` stands for the `ValueError`/`TypeError` it raises. */
  function Float(v: Numeric): (r: Option<real>)
    ensures r.Some? <==> v.Num?
    ensures v.Num? ==> r == Some(v.value)
  {
    match v
    case Num(x) => Some(x)
    case NonNumeric => None
  }

  /** Barangay and municipal staff. `role` is free text: "barangay" or "municipal" in practice. */
  datatype User = User(
    id: int,
    email: string,
    fullName: string,
    role: string,
    barangayName: Option<string>,
    password: string)

  datatype Farmer = Farmer(
    id: int,
    firstName: string,
    middleName: Option<string>,
    lastName: string,
    username: string,
    password: string,
    barangayName: string,
    userId: int)

  /** One drying batch. `timestamp` is the server clock at insertion. */
  datatype DryingRecord = DryingRecord(
    id: int,
    timestamp: int,
    batchName: string,
    farmerName: Option<string>,
    initialWeight: Numeric,
    temperature: Numeric,
    humidity: Numeric,
    sensorValue: Numeric,
    initialMoisture: Numeric,
    finalMoisture: Numeric,
    dryingTime: string,
    finalWeight: Numeric,
    shelfLife: Option<string>,
    dateDried: Option<Date>,
    datePlanted: Option<Date>,
    dateHarvested: Option<Date>,
    barangayName: Option<string>,
    userId: int,
    farmerId: Option<int>,
    dueDate: Option<Date>)

  /** Python truthiness of an optional string: present and non-empty. */
  predicate Truthy(s: Option<string>) {
    s.Some? && s.value != ""
  }

  /**
   * `Farmer.full_name`: first, middle (when truthy) and last name, separated by
   * single spaces.
   */
  function FullName(f: Farmer): (name: string)
    ensures |name| == |f.firstName| + |f.lastName| + 1 + (if Truthy(f.middleName) then |f.middleName.value| + 1 else 0)
    ensures name[..|f.firstName|] == f.firstName && name[|f.firstName|] == ' '
    ensures name[|name| - |f.lastName|..] == f.lastName && name[|name| - |f.lastName| - 1] == ' '
    ensures Truthy(f.middleName) ==>
      name[|f.firstName| + 1..|f.firstName| + 1 + |f.middleName.value|] == f.middleName.value
  {
    if Truthy(f.middleName) then
      f.firstName + " " + f.middleName.value + " " + f.lastName
    else
      f.firstName + " " + f.lastName
  }

  /** An empty middle name and a missing one give the same full name. */
  lemma EmptyMiddleNameIsNoMiddleName(f: Farmer)
    ensures FullName(f.(middleName := Some(""))) == FullName(f.(middleName := None))
  {
  }

  /** `User.get_id`: "user-" and the decimal id, which `int` reads back. */
  function UserSessionId(u: User): (s: string)
    ensures |s| > 5 && s[..5] == "user-"
    ensures Text.ParseInt(s[5..]) == Some(u.id)
  {
    Text.IntToStringRoundTrip(u.id);
    var s := "user-" + Text.IntToString(u.id);
    assert s[5..] == Text.IntToString(u.id);
    s
  }

  /** `Farmer.get_id`: "farmer-" and the decimal id, which `int` reads back. */
  function FarmerSessionId(f: Farmer): (s: string)
    ensures |s| > 7 && s[..7] == "farmer-"
    ensures Text.ParseInt(s[7..]) == Some(f.id)
  {
    Text.IntToStringRoundTrip(f.id);
    var s := "farmer-" + Text.IntToString(f.id);
    assert s[7..] == Text.IntToString(f.id);
    s
  }

  /** The authenticated account behind a request (`current_user`). */
  datatype Principal = UserPrincipal(user: User) | FarmerPrincipal(farmer: Farmer)

  /** `current_user.get_id()`: the "user-" prefix marks exactly the users. */
  function SessionId(p: Principal): (s: string)
    ensures |s| > 5 && (s[..5] == "user-" <==> p.UserPrincipal?)
  {
    match p
    case UserPrincipal(u) => UserSessionId(u)
    case FarmerPrincipal(f) =>
      var s := FarmerSessionId(f);
      assert s[..5][0] == s[..7][0] == 'f';
      s
  }

  /** `current_user.id`. */
  function Id(p: Principal): int {
    match p
    case UserPrincipal(u) => u.id
    case FarmerPrincipal(f) => f.id
  }

  /** `current_user.role`: the stored column for a user, always "farmer" for a farmer. */
  function Role(p: Principal): (role: string)
    ensures p.FarmerPrincipal? ==> role == "farmer"
    ensures p.UserPrincipal? ==> role == p.user.role
  {
    match p
    case UserPrincipal(u) => u.role
    case FarmerPrincipal(_) => "farmer"
  }

  /** `current_user.barangay_name`: nullable for a user, always present for a farmer. */
  function BarangayName(p: Principal): (name: Option<string>)
    ensures p.FarmerPrincipal? ==> name == Some(p.farmer.barangayName)
    ensures p.UserPrincipal? ==> name == p.user.barangayName
  {
    match p
    case UserPrincipal(u) => u.barangayName
    case FarmerPrincipal(f) => Some(f.barangayName)
  }

  /** `current_user.full_name`: the stored column for a user, derived for a farmer. */
  function DisplayName(p: Principal): (name: string)
    ensures p.UserPrincipal? ==> name == p.user.fullName
    ensures p.FarmerPrincipal? ==> name == FullName(p.farmer)
  {
    match p
    case UserPrincipal(u) => u.fullName
    case FarmerPrincipal(f) => FullName(f)
  }

  /**
   * Session identifiers determine the principal's kind and id: two users, two
   * farmers, or a user and a farmer never share one unless kind and id agree.
   * A consequence of the decoding contracts of `UserSessionId` and
   * `FarmerSessionId`.
   */
  lemma SessionIdInjective(p: Principal, q: Principal)
    requires SessionId(p) == SessionId(q)
    ensures p.UserPrincipal? <==> q.UserPrincipal?
    ensures Id(p) == Id(q)
  {
    // The prefix fixes the kind and `int` of the rest reads back the id.
  }

  /** No two users share an email (the column's unique constraint). */
  predicate UniqueEmails(users: seq<User>) {
    forall i, j :: 0 <= i < j < |users| ==> users[i].email != users[j].email
  }

  /** No two farmers share a primary key. */
  predicate UniqueFarmerIds(farmers: seq<Farmer>) {
    forall i, j :: 0 <= i < j < |farmers| ==> farmers[i].id != farmers[j].id
  }

  /** No two records share a primary key. */
  predicate UniqueRecordIds(records: seq<DryingRecord>) {
    forall i, j :: 0 <= i < j < |records| ==> records[i].id != records[j].id
  }

  /** No two farmers share a username (the column's unique constraint). */
  predicate UniqueUsernames(farmers: seq<Farmer>) {
    forall i, j :: 0 <= i < j < |farmers| ==> farmers[i].username != farmers[j].username
  }
}

=== FILE: ordering.dfy ===
/**
 * The final step of the monthly and analytics views: the chart's keys are
 * re-sorted with `sorted(keys, key=...)` and copied into a new dictionary in
 * that order. A key the sort key cannot parse raises `ValueError`, and the
 * view then keeps the chart in first-seen order. The municipal analytics view
 * instead sorts the (key, value) pairs, which orders the keys as strings.
 */
module Ordering {
  import opened Wrappers
  import opened Models
  import opened Calendar
  import Text
  import Sorting
  import opened Aggregation

  /** The `key=` function of a `sorted()` call. */
  datatype KeyParser =
    | FullMonthYear    // strptime(d, '%B %Y')
    | AbbrevMonthYear  // strptime(d, '%b %Y')
    | Integer          // int

  /** The month table a month parser reads with. */
  function ParserTable(p: KeyParser): seq<string>
    requires !p.Integer?
  {
    if p.FullMonthYear? then MonthNames else MonthAbbreviations
  }

  /**
   * The parsed key as a number that orders like the parsed value; `None` when
   * parsing raises. A month parser yields the month's rank.
   */
  function ParseKey(p: KeyParser, k: string): (r: Option<int>)
    ensures p.Integer? ==> r == Text.ParseInt(k)
    ensures !p.Integer? ==> (r.Some? <==> ParseMonthYear(ParserTable(p), k).Some?)
    ensures !p.Integer? && r.Some? ==>
      r.value == MonthRank(ParseMonthYear(ParserTable(p), k).value.0, ParseMonthYear(ParserTable(p), k).value.1)
  {
    match p
    case FullMonthYear => MonthPosition(ParseMonthYear(MonthNames, k))
    case AbbrevMonthYear => MonthPosition(ParseMonthYear(MonthAbbreviations, k))
    case Integer => Text.ParseInt(k)
  }

  function MonthPosition(ym: Option<(int, int)>): Option<int> {
    if ym.Some? then Some(MonthRank(ym.value.0, ym.value.1)) else None
  }

  function Rank(p: KeyParser, k: string): int {
    ParseKey(p, k).GetOr(0)
  }

  /** The comparison `sorted()` applies: `<` on the parsed keys. */
  function RankOrder(p: KeyParser): (string, string) -> bool {
    (a: string, b: string) => Rank(p, a) < Rank(p, b)
  }

  predicate AllParse(p: KeyParser, ks: seq<string>) {
    forall k :: k in ks ==> ParseKey(p, k).Some?
  }

  /** How a view orders its chart: by a parsed key, or as plain strings. */
  datatype KeyOrder = ByParsed(parser: KeyParser) | AsStrings

  /**
   * The key order a view ends up with. Every ordering is a permutation of the
   * first-seen keys; a parse failure leaves them as they were.
   */
  function OrderedKeys(o: KeyOrder, ks: seq<string>): (r: seq<string>)
    ensures multiset(r) == multiset(ks)
  {
    match o
    case ByParsed(p) => if AllParse(p, ks) then Sorting.Sort(ks, RankOrder(p)) else ks
    case AsStrings => Sorting.Sort(ks, Text.LexLt)
  }

  /** `{key: values[key] for key in keys}`, inserted in the order of `keys`. */
  method CopyInOrder<V>(keys: seq<string>, values: map<string, V>) returns (m: map<string, V>)
    requires forall k :: k in keys ==> k in values
    ensures forall k :: k in m <==> k in keys
    ensures forall k :: k in m ==> m[k] == values[k]
  {
    m := map[];
    var i := 0;
    while i < |keys|
      invariant 0 <= i <= |keys|
      invariant forall k :: k in m <==> k in keys[..i]
      invariant forall k :: k in m ==> m[k] == values[k]
    {
      assert keys[..i + 1] == keys[..i] + [keys[i]];
      m := m[keys[i] := values[keys[i]]];
      i := i + 1;
    }
    assert keys[..|keys|] == keys;
  }

  /**
   * The copy loop after the sort: the new dictionary holds the same entries,
   * inserted in sorted order; on a parse failure the original dictionary is kept.
   */
  method Reorder<V>(c: Chart<V>, o: KeyOrder) returns (d: Chart<V>)
    requires WellFormed(c)
    ensures WellFormed(d)
    ensures d.keys == OrderedKeys(o, c.keys) && d.values == c.values
  {
    if o.ByParsed? && !AllParse(o.parser, c.keys) {
      return c;
    }
    var keys := if o.ByParsed? then Sorting.Sort(c.keys, RankOrder(o.parser)) else Sorting.Sort(c.keys, Text.LexLt);
    assert keys == OrderedKeys(o, c.keys);
    assert forall k :: k in keys <==> k in c.keys by {
      forall k ensures k in keys <==> k in multiset(keys) {
      }
    }
    var values := CopyInOrder(keys, c.values);
    Sorting.DistinctByMultiset(c.keys, keys);
    d := Chart(keys, values);
  }

  lemma RankOrderIsStrict(p: KeyParser)
    ensures Sorting.StrictOrder(RankOrder(p))
  {
  }

  lemma LexLtIsStrict()
    ensures Sorting.StrictOrder(Text.LexLt)
  {
    forall a: string
      ensures !Text.LexLt(a, a)
    {
      Text.LexLtIrreflexive(a);
    }
    forall a: string, b: string, c: string | Text.LexLt(a, b) && Text.LexLt(b, c)
      ensures Text.LexLt(a, c)
    {
      Text.LexLtTransitive(a, b, c);
    }
  }

  /**
   * Sorting distinct keys that all parse, and parse to different values, gives
   * them in strictly increasing order of the parsed value.
   */
  lemma SortByRankIsStrict(p: KeyParser, ks: seq<string>)
    requires Sorting.Distinct(ks) && AllParse(p, ks)
    requires forall a, b :: a in ks && b in ks && ParseKey(p, a) == ParseKey(p, b) ==> a == b
    ensures var r := Sorting.Sort(ks, RankOrder(p));
      AllParse(p, r) && forall i, j :: 0 <= i < j < |r| ==> ParseKey(p, r[i]).value < ParseKey(p, r[j]).value
  {
    var r := Sorting.Sort(ks, RankOrder(p));
    SameElements(ks, r);
    RankOrderIsStrict(p);
    Sorting.SortSorted(ks, RankOrder(p));
    Sorting.DistinctByMultiset(ks, r);
    assert Sorting.ConnectedOn(r, RankOrder(p)) by {
      forall i, j | 0 <= i < |r| && 0 <= j < |r| && r[i] != r[j]
        ensures Rank(p, r[i]) != Rank(p, r[j])
      {
        assert r[i] in ks && r[j] in ks;
      }
    }
    Sorting.SortedDistinctIsStrict(r, RankOrder(p));
  }

  /** Two sequences with the same multiset have the same elements. */
  lemma SameElements(s: seq<string>, t: seq<string>)
    requires multiset(s) == multiset(t)
    ensures forall k :: k in t <==> k in s
  {
    forall k
      ensures k in t <==> k in s
    {
      assert k in t <==> k in multiset(t);
      assert k in s <==> k in multiset(s);
    }
  }

  /** `(y1, m1)` is an earlier month than `(y2, m2)`. */
  predicate Earlier(a: (int, int), b: (int, int)) {
    a.0 < b.0 || (a.0 == b.0 && a.1 < b.1)
  }

  /**
   * Two month keys that parse compare by `ParseKey` exactly as the
   * `datetime`s `strptime` returns for them compare.
   */
  lemma ParseKeyOrdersLikeDates(p: KeyParser, a: string, b: string)
    requires !p.Integer? && ParseKey(p, a).Some? && ParseKey(p, b).Some?
    ensures ParseKey(p, a).value < ParseKey(p, b).value <==>
      Earlier(ParseMonthYear(ParserTable(p), a).value, ParseMonthYear(ParserTable(p), b).value)
  {
    var x := ParseMonthYear(ParserTable(p), a).value;
    var y := ParseMonthYear(ParserTable(p), b).value;
    MonthRankOrder(x.0, x.1, y.0, y.1);
  }

  /** The month table a month grouping formats its keys with. */
  function MonthTable(g: Grouping): (names: seq<string>)
    requires g.ByFullMonth? || g.ByAbbrevMonth?
    ensures NameTable(names)
  {
    TablesWellFormed();
    if g.ByFullMonth? then MonthNames else MonthAbbreviations
  }

  /** The parser the view pairs with a month grouping: the same format, read back. */
  function MonthParser(g: Grouping): KeyParser
    requires g.ByFullMonth? || g.ByAbbrevMonth?
  {
    if g.ByFullMonth? then FullMonthYear else AbbrevMonthYear
  }

  /** Every key of a month grouping is some dried date's month, written with the grouping's table. */
  lemma MonthKeyIsDate(rs: seq<DryingRecord>, g: Grouping, k: string)
    requires g.ByFullMonth? || g.ByAbbrevMonth?
    requires k in GroupKeys(rs, g)
    ensures exists d: Date :: k == MonthYearString(MonthTable(g), d)
  {
    GroupKeysAreGroupedKeys(rs, g, k);
    var i :| 0 <= i < |rs| && GroupKey(g, rs[i]) == Some(k);
    assert k == MonthYearString(MonthTable(g), rs[i].dateDried.value);
  }

  /** A dried date whose month key is `k`. */
  ghost function MonthKeyDate(rs: seq<DryingRecord>, g: Grouping, k: string): (d: Date)
    requires g.ByFullMonth? || g.ByAbbrevMonth?
    requires k in GroupKeys(rs, g)
    ensures k == MonthYearString(MonthTable(g), d)
  {
    MonthKeyIsDate(rs, g, k);
    var d: Date :| k == MonthYearString(MonthTable(g), d);
    d
  }

  /** Every key of the year grouping is some dried date's year. */
  lemma YearKeyIsDate(rs: seq<DryingRecord>, k: string) returns (d: Date)
    requires k in GroupKeys(rs, ByYear)
    ensures k == YearString(d.year)
  {
    GroupKeysAreGroupedKeys(rs, ByYear, k);
    var i :| 0 <= i < |rs| && GroupKey(ByYear, rs[i]) == Some(k);
    d := rs[i].dateDried.value;
  }

  /**
   * The barangay monthly dashboard ('%B %Y' keys read back with '%B %Y') and
   * the monthly analytics ('%b %Y' keys read back with '%b %Y') never fall
   * back: every key parses, and the keys come out in strictly chronological
   * order.
   */
  lemma MonthKeysChronological(rs: seq<DryingRecord>, g: Grouping)
    requires g.ByFullMonth? || g.ByAbbrevMonth?
    ensures var ks := OrderedKeys(ByParsed(MonthParser(g)), GroupKeys(rs, g));
      && ks == Sorting.Sort(GroupKeys(rs, g), RankOrder(MonthParser(g)))
      && (forall i :: 0 <= i < |ks| ==> ParseMonthYear(MonthTable(g), ks[i]).Some?)
      && (forall i, j :: 0 <= i < j < |ks| ==>
            Earlier(ParseMonthYear(MonthTable(g), ks[i]).value, ParseMonthYear(MonthTable(g), ks[j]).value))
  {
    var ks := GroupKeys(rs, g);
    var p := MonthParser(g);
    var names := MonthTable(g);
    MonthKeysParse(rs, g);
    SortByRankIsStrict(p, ks);
    var r := Sorting.Sort(ks, RankOrder(p));
    forall i | 0 <= i < |r|
      ensures ParseMonthYear(names, r[i]).Some?
    {
      assert ParseKey(p, r[i]) == MonthPosition(ParseMonthYear(names, r[i]));
    }
    forall i, j | 0 <= i < j < |r|
      ensures Earlier(ParseMonthYear(names, r[i]).value, ParseMonthYear(names, r[j]).value)
    {
      assert ParseKey(p, r[i]) == MonthPosition(ParseMonthYear(names, r[i]));
      assert ParseKey(p, r[j]) == MonthPosition(ParseMonthYear(names, r[j]));
      var a := ParseMonthYear(names, r[i]).value;
      var b := ParseMonthYear(names, r[j]).value;
      MonthRankOrder(a.0, a.1, b.0, b.1);
    }
  }

  /** Every key of a month grouping parses with its own format, and different keys parse differently. */
  lemma MonthKeysParse(rs: seq<DryingRecord>, g: Grouping)
    requires g.ByFullMonth? || g.ByAbbrevMonth?
    ensures AllParse(MonthParser(g), GroupKeys(rs, g))
    ensures forall a, b ::
      (a in GroupKeys(rs, g) && b in GroupKeys(rs, g) && ParseKey(MonthParser(g), a) == ParseKey(MonthParser(g), b))
      ==> a == b
  {
    var ks := GroupKeys(rs, g);
    forall k | k in ks
      ensures ParseKey(MonthParser(g), k).Some?
    {
      MonthKeyRank(rs, g, k);
    }
    forall a, b | a in ks && b in ks && ParseKey(MonthParser(g), a) == ParseKey(MonthParser(g), b)
      ensures a == b
    {
      MonthKeyRank(rs, g, a);
      MonthKeyRank(rs, g, b);
      MonthKeysAgree(MonthTable(g), MonthKeyDate(rs, g, a), MonthKeyDate(rs, g, b));
    }
  }

  /** A month key parses back to the rank of the date it was written from. */
  lemma MonthKeyRank(rs: seq<DryingRecord>, g: Grouping, k: string)
    requires g.ByFullMonth? || g.ByAbbrevMonth?
    requires k in GroupKeys(rs, g)
    ensures ParseKey(MonthParser(g), k) == Some(MonthRank(MonthKeyDate(rs, g, k).year as int, MonthKeyDate(rs, g, k).month as int))
  {
    MonthYearRoundTrip(MonthTable(g), MonthKeyDate(rs, g, k));
  }

  /** Two dates of the same rank are written as the same month key. */
  lemma MonthKeysAgree(names: seq<string>, d: Date, e: Date)
    requires |names| == 12
    requires MonthRank(d.year as int, d.month as int) == MonthRank(e.year as int, e.month as int)
    ensures MonthYearString(names, d) == MonthYearString(names, e)
  {
    MonthRankOrder(d.year as int, d.month as int, e.year as int, e.month as int);
  }

  /** The year views parse their keys with `int`: every key parses, and the years come out increasing. */
  lemma YearKeysAscending(rs: seq<DryingRecord>)
    ensures var ks := OrderedKeys(ByParsed(Integer), GroupKeys(rs, ByYear));
      && ks == Sorting.Sort(GroupKeys(rs, ByYear), RankOrder(Integer))
      && (forall i :: 0 <= i < |ks| ==> Text.ParseInt(ks[i]).Some?)
      && (forall i, j :: 0 <= i < j < |ks| ==> Text.ParseInt(ks[i]).value < Text.ParseInt(ks[j]).value)
  {
    var ks := GroupKeys(rs, ByYear);
    YearKeysParse(rs);
    SortByRankIsStrict(Integer, ks);
    var r := Sorting.Sort(ks, RankOrder(Integer));
    assert OrderedKeys(ByParsed(Integer), ks) == r;
    forall i | 0 <= i < |r|
      ensures Text.ParseInt(r[i]).Some?
    {
      assert ParseKey(Integer, r[i]) == Text.ParseInt(r[i]);
    }
  }

  /** Every year key parses with `int`, and different keys parse differently. */
  lemma YearKeysParse(rs: seq<DryingRecord>)
    ensures AllParse(Integer, GroupKeys(rs, ByYear))
    ensures forall a, b ::
      (a in GroupKeys(rs, ByYear) && b in GroupKeys(rs, ByYear) && ParseKey(Integer, a) == ParseKey(Integer, b))
      ==> a == b
  {
    var ks := GroupKeys(rs, ByYear);
    forall k | k in ks
      ensures ParseKey(Integer, k).Some?
    {
      YearKeyValue(rs, k);
    }
    forall a, b | a in ks && b in ks && ParseKey(Integer, a) == ParseKey(Integer, b)
      ensures a == b
    {
      YearKeyValue(rs, a);
      YearKeyValue(rs, b);
    }
  }

  /** A year key is a four-digit year that `int` reads back, and it is determined by that value. */
  lemma YearKeyValue(rs: seq<DryingRecord>, k: string)
    requires k in GroupKeys(rs, ByYear)
    ensures Text.ParseInt(k).Some? && 1 <= Text.ParseInt(k).value <= 9999
    ensures k == YearString(Text.ParseInt(k).value as Year)
  {
    var d := YearKeyIsDate(rs, k);
  }

  /**
   * A period other than 'year' and 'month' groups by '%b %Y' but parses with
   * `int`, which raises on the first key, so the chart keeps first-seen order.
   */
  lemma UnknownPeriodKeepsFirstSeenOrder(rs: seq<DryingRecord>)
    ensures OrderedKeys(ByParsed(Integer), GroupKeys(rs, ByAbbrevMonth)) == GroupKeys(rs, ByAbbrevMonth)
  {
    var ks := GroupKeys(rs, ByAbbrevMonth);
    if ks != [] {
      assert ks[0] in ks;
      AbbrevMonthKeyIsNotInteger(MonthKeyDate(rs, ByAbbrevMonth, ks[0]));
      assert !AllParse(Integer, ks);
    }
  }

  /**
   * The municipal year view sorts its keys as strings; since every year key
   * has four digits, string order is numeric order.
   */
  lemma MunicipalYearsAscending(rs: seq<DryingRecord>)
    ensures var ks := OrderedKeys(AsStrings, GroupKeys(rs, ByYear));
      && (forall i :: 0 <= i < |ks| ==> Text.ParseInt(ks[i]).Some?)
      && (forall i, j :: 0 <= i < j < |ks| ==> Text.ParseInt(ks[i]).value < Text.ParseInt(ks[j]).value)
  {
    var keys := GroupKeys(rs, ByYear);
    var ks := OrderedKeys(AsStrings, keys);
    assert ks == Sorting.Sort(keys, Text.LexLt);
    SameElements(keys, ks);
    forall i | 0 <= i < |ks|
      ensures Text.ParseInt(ks[i]).Some?
    {
      YearKeyValue(rs, ks[i]);
    }
    LexSortIsStrict(keys, ks);
    forall i, j | 0 <= i < j < |ks|
      ensures Text.ParseInt(ks[i]).value < Text.ParseInt(ks[j]).value
    {
      assert ks[i] in keys && ks[j] in keys;
      YearKeysCompare(rs, ks[i], ks[j]);
    }
  }

  /** Sorting distinct strings as strings gives them in strictly increasing string order. */
  lemma LexSortIsStrict(keys: seq<string>, ks: seq<string>)
    requires Sorting.Distinct(keys) && ks == Sorting.Sort(keys, Text.LexLt)
    ensures forall i, j :: 0 <= i < j < |ks| ==> Text.LexLt(ks[i], ks[j])
  {
    LexLtIsStrict();
    Sorting.SortSorted(keys, Text.LexLt);
    Sorting.DistinctByMultiset(keys, ks);
    assert Sorting.ConnectedOn(ks, Text.LexLt) by {
      forall i, j | 0 <= i < |ks| && 0 <= j < |ks| && ks[i] != ks[j]
        ensures Text.LexLt(ks[i], ks[j]) || Text.LexLt(ks[j], ks[i])
      {
        Text.LexLtConnected(ks[i], ks[j]);
      }
    }
    Sorting.SortedDistinctIsStrict(ks, Text.LexLt);
  }

  /** Two year keys compare as strings the way their years compare as numbers. */
  lemma YearKeysCompare(rs: seq<DryingRecord>, a: string, b: string)
    requires a in GroupKeys(rs, ByYear) && b in GroupKeys(rs, ByYear)
    requires Text.LexLt(a, b)
    ensures Text.ParseInt(a).Some? && Text.ParseInt(b).Some?
    ensures Text.ParseInt(a).value < Text.ParseInt(b).value
  {
    var da := YearKeyIsDate(rs, a);
    var db := YearKeyIsDate(rs, b);
    YearStringValue(da.year);
    YearStringValue(db.year);
    Text.LexLtDigits(a, b);
  }

  /** A record dried on `d` with every other column empty. */
  function DriedOn(d: Date): (r: DryingRecord)
    ensures r.dateDried == Some(d)
  {
    DryingRecord(0, 0, "", None, NonNumeric, NonNumeric, NonNumeric, NonNumeric, NonNumeric, NonNumeric,
      "", NonNumeric, None, Some(d), None, None, None, 0, None, None)
  }

  lemma JanFeb2024Keys()
    ensures AbbrevMonthKey(Date(2024, 1, 1)) == "Jan 2024" && AbbrevMonthKey(Date(2024, 2, 1)) == "Feb 2024"
  {
    assert YearString(2024) == "2024";
    assert MonthYearString(MonthAbbreviations, Date(2024, 1, 1)) == MonthAbbreviations[0] + " " + "2024" == "Jan 2024";
    assert MonthYearString(MonthAbbreviations, Date(2024, 2, 1)) == MonthAbbreviations[1] + " " + "2024" == "Feb 2024";
  }

  lemma TwoMonthKeys()
    ensures GroupKeys([DriedOn(Date(2024, 1, 1)), DriedOn(Date(2024, 2, 1))], ByAbbrevMonth) == ["Jan 2024", "Feb 2024"]
  {
    var jan := DriedOn(Date(2024, 1, 1));
    var feb := DriedOn(Date(2024, 2, 1));
    JanFeb2024Keys();
    assert GroupKey(ByAbbrevMonth, jan) == Some("Jan 2024");
    assert GroupKey(ByAbbrevMonth, feb) == Some("Feb 2024");
    assert [jan, feb][..1] == [jan];
    assert [jan][..0] == [];
  }

  lemma TwoMonthKeysAsStrings()
    ensures Sorting.Sort(["Jan 2024", "Feb 2024"], Text.LexLt) == ["Feb 2024", "Jan 2024"]
  {
    var ks := ["Jan 2024", "Feb 2024"];
    assert ks[..1] == ["Jan 2024"];
    assert Sorting.Sort(["Jan 2024"], Text.LexLt) == ["Jan 2024"];
    assert Text.LexLt("Feb 2024", "Jan 2024");
  }

  /**
   * The municipal month view sorts its '%b %Y' keys as strings, so months are
   * alphabetical: February 2024 is listed before January 2024.
   */
  lemma MunicipalMonthsAlphabetical()
    ensures OrderedKeys(AsStrings, GroupKeys([DriedOn(Date(2024, 1, 1)), DriedOn(Date(2024, 2, 1))], ByAbbrevMonth))
      == ["Feb 2024", "Jan 2024"]
  {
    TwoMonthKeys();
    TwoMonthKeysAsStrings();
  }
}

=== FILE: sorting.dfy ===
/**
 * Python's `sorted()` for a strict comparison `lt` (the `<` of the sort key):
 * a stable insertion sort, stated by its result being sorted and a permutation.
 */
module Sorting {

  /** No element is strictly below an element that precedes it. */
  predicate Sorted<T>(s: seq<T>, lt: (T, T) -> bool) {
    forall i, j :: 0 <= i < j < |s| ==> !lt(s[j], s[i])
  }

  /** `lt` is a strict order: irreflexive and transitive. */
  ghost predicate StrictOrder<T(!new)>(lt: (T, T) -> bool) {
    && (forall a :: !lt(a, a))
    && (forall a, b, c :: lt(a, b) && lt(b, c) ==> lt(a, c))
  }

  /** Any two different elements of `s` are comparable. */
  ghost predicate ConnectedOn<T>(s: seq<T>, lt: (T, T) -> bool) {
    forall i, j :: 0 <= i < |s| && 0 <= j < |s| && s[i] != s[j] ==> lt(s[i], s[j]) || lt(s[j], s[i])
  }

  predicate Distinct<T(==)>(s: seq<T>) {
    forall i, j :: 0 <= i < j < |s| ==> s[i] != s[j]
  }

  /** Puts `x` after every element of `s` it is not strictly below. */
  function Insert<T>(x: T, s: seq<T>, lt: (T, T) -> bool): (r: seq<T>)
    ensures multiset(r) == multiset(s) + multiset{x}
  {
    if s == [] then [x]
    else if lt(x, s[0]) then [x] + s
    else
      assert s == [s[0]] + s[1..];
      [s[0]] + Insert(x, s[1..], lt)
  }

  function Sort<T>(s: seq<T>, lt: (T, T) -> bool): (r: seq<T>)
    ensures multiset(r) == multiset(s)
  {
    if s == [] then []
    else
      assert s == s[..|s| - 1] + [s[|s| - 1]];
      Insert(s[|s| - 1], Sort(s[..|s| - 1], lt), lt)
  }

  lemma {:induction false} InsertSorted<T(!new)>(x: T, s: seq<T>, lt: (T, T) -> bool)
    requires StrictOrder(lt) && Sorted(s, lt)
    ensures Sorted(Insert(x, s, lt), lt)
  {
    if s == [] {
    } else if lt(x, s[0]) {
      forall k | 0 <= k < |s|
        ensures !lt(s[k], x)
      {
        if k > 0 {
          assert !lt(s[k], s[0]);
        }
      }
    } else {
      InsertSorted(x, s[1..], lt);
      var r := Insert(x, s[1..], lt);
      forall k | 0 <= k < |r|
        ensures !lt(r[k], s[0])
      {
        assert r[k] in multiset(s[1..]) + multiset{x};
        if r[k] != x {
          var m :| 0 <= m < |s[1..]| && s[1..][m] == r[k];
          assert s[m + 1] == r[k];
        }
      }
      assert Insert(x, s, lt) == [s[0]] + r;
    }
  }

  /** Python's `sorted(s)` is sorted and holds the same elements. */
  lemma {:induction false} SortSorted<T(!new)>(s: seq<T>, lt: (T, T) -> bool)
    requires StrictOrder(lt)
    ensures Sorted(Sort(s, lt), lt) && multiset(Sort(s, lt)) == multiset(s)
  {
    if s != [] {
      SortSorted(s[..|s| - 1], lt);
      InsertSorted(s[|s| - 1], Sort(s[..|s| - 1], lt), lt);
    }
  }

  /** When the elements are distinct and pairwise comparable, sorted means strictly increasing. */
  lemma SortedDistinctIsStrict<T>(s: seq<T>, lt: (T, T) -> bool)
    requires Sorted(s, lt) && Distinct(s) && ConnectedOn(s, lt)
    ensures forall i, j :: 0 <= i < j < |s| ==> lt(s[i], s[j])
  {
  }

  lemma DistinctByMultiset<T>(s: seq<T>, t: seq<T>)
    requires multiset(s) == multiset(t) && Distinct(s)
    ensures Distinct(t)
  {
    forall i, j | 0 <= i < j < |t|
      ensures t[i] != t[j]
    {
      if t[i] == t[j] {
        assert t == t[..i] + [t[i]] + t[i + 1..j] + [t[j]] + t[j + 1..];
        assert multiset(t)[t[i]] >= 2;
        DistinctCount(s, t[i]);
        assert false;
      }
    }
  }

  lemma {:induction false} DistinctCount<T>(s: seq<T>, x: T)
    requires Distinct(s)
    ensures multiset(s)[x] <= 1
  {
    if s != [] {
      assert s == [s[0]] + s[1..];
      DistinctCount(s[1..], x);
      if s[0] == x {
        assert x !in s[1..];
      }
    }
  }
}

=== FILE: store.dfy ===
/**
 * The relational store as three in-memory tables. Primary keys come from
 * per-table counters that never hand out a value twice (see README for the
 * SQLite backend, which can reuse the largest id after a delete); the unique constraints on
 * `users.email` and `farmers.username`, and the uniqueness of every primary
 * key, form the object invariant. A successful `commit` appends to a table; a
 * failed one leaves every table as it was.
 */
module Store {
  import opened Wrappers
  import opened Models

  /**
   * Whether SQLite can bind `i` as an INTEGER parameter, a signed 64-bit
   * value; binding any other Python int raises `OverflowError`.
   */
  predicate FitsInteger(i: int) {
    -0x8000_0000_0000_0000 <= i <= 0x7FFF_FFFF_FFFF_FFFF
  }

  /** `User.query.filter_by(email=email).first()`. */
  function FindUserByEmail(users: seq<User>, email: string): (r: Option<User>)
    ensures r.Some? ==> r.value in users && r.value.email == email
    ensures r.None? ==> forall u :: u in users ==> u.email != email
  {
    if users == [] then None
    else if users[0].email == email then Some(users[0])
    else FindUserByEmail(users[1..], email)
  }

  /** The column a farmer is looked up by. */
  datatype FarmerKey = Username(username: string) | FarmerId(id: int)

  predicate Identifies(key: FarmerKey, f: Farmer) {
    match key
    case Username(name) => f.username == name
    case FarmerId(id) => f.id == id
  }

  /**
   * `Farmer.query.filter_by(username=name).first()` and `Farmer.query.get(id)`:
   * the first farmer the key identifies.
   */
  function FindFarmer(farmers: seq<Farmer>, key: FarmerKey): (r: Option<Farmer>)
    ensures r.Some? ==> r.value in farmers && Identifies(key, r.value)
    ensures r.None? ==> forall f :: f in farmers ==> !Identifies(key, f)
  {
    if farmers == [] then None
    else if Identifies(key, farmers[0]) then Some(farmers[0])
    else FindFarmer(farmers[1..], key)
  }

  /** Position of the record with primary key `id` (`DryingRecord.query.get(id)`). */
  function IndexOfRecord(records: seq<DryingRecord>, id: int): (r: Option<nat>)
    ensures r.Some? ==> r.value < |records| && records[r.value].id == id
    ensures r.None? ==> forall i :: 0 <= i < |records| ==> records[i].id != id
  {
    if records == [] then None
    else if records[|records| - 1].id == id then Some(|records| - 1)
    else IndexOfRecord(records[..|records| - 1], id)
  }

  /** The rows of one flush: `rs` with primary keys `start`, `start + 1`, ... */
  function Numbered(rs: seq<DryingRecord>, start: int): (out: seq<DryingRecord>)
    ensures |out| == |rs|
    ensures forall i :: 0 <= i < |rs| ==> out[i] == rs[i].(id := start + i)
  {
    seq(|rs|, i requires 0 <= i < |rs| => rs[i].(id := start + i))
  }

  /** Removing the record at `i` from a table with unique ids removes every record with its id. */
  lemma RemovedIdIsGone(rs: seq<DryingRecord>, i: nat)
    requires UniqueRecordIds(rs) && i < |rs|
    ensures forall r :: r in rs[..i] + rs[i + 1..] ==> r.id != rs[i].id
  {
    forall r | r in rs[..i] + rs[i + 1..]
      ensures r.id != rs[i].id
    {
      var j :| 0 <= j < |rs[..i] + rs[i + 1..]| && (rs[..i] + rs[i + 1..])[j] == r;
      if j < i {
        assert r == rs[j];
      } else {
        assert r == rs[j + 1];
      }
    }
  }

  class Database {
    var users: seq<User>
    var farmers: seq<Farmer>
    var records: seq<DryingRecord>
    var nextUserId: int
    var nextFarmerId: int
    var nextRecordId: int

    ghost predicate Valid()
      reads this
    {
      && (forall i :: 0 <= i < |users| ==> users[i].id < nextUserId)
      && (forall i, j :: 0 <= i < j < |users| ==> users[i].id != users[j].id)
      && UniqueEmails(users)
      && (forall i :: 0 <= i < |farmers| ==> farmers[i].id < nextFarmerId)
      && UniqueFarmerIds(farmers)
      && UniqueUsernames(farmers)
      && (forall i :: 0 <= i < |records| ==> records[i].id < nextRecordId)
      && UniqueRecordIds(records)
    }

    /** An empty database (`db.create_all()`). */
    constructor ()
      ensures Valid()
      ensures users == [] && farmers == [] && records == []
      ensures nextUserId == 1 && nextFarmerId == 1 && nextRecordId == 1
    {
      users, farmers, records := [], [], [];
      nextUserId, nextFarmerId, nextRecordId := 1, 1, 1;
    }

    /** `db.session.add(user)` then `commit()`; the unique email is the caller's to check. */
    method AddUser(u: User) returns (stored: User)
      requires Valid() && FindUserByEmail(users, u.email).None?
      modifies this
      ensures Valid()
      ensures stored == u.(id := old(nextUserId)) && users == old(users) + [stored]
      ensures farmers == old(farmers) && records == old(records)
      ensures nextUserId == old(nextUserId) + 1
      ensures nextFarmerId == old(nextFarmerId) && nextRecordId == old(nextRecordId)
    {
      stored := u.(id := nextUserId);
      users := users + [stored];
      nextUserId := nextUserId + 1;
    }

    /** `db.session.add(farmer)` then `commit()`; the unique username is the caller's to check. */
    method AddFarmer(f: Farmer) returns (stored: Farmer)
      requires Valid() && FindFarmer(farmers, Username(f.username)).None?
      modifies this
      ensures Valid()
      ensures stored == f.(id := old(nextFarmerId)) && farmers == old(farmers) + [stored]
      ensures users == old(users) && records == old(records)
      ensures nextFarmerId == old(nextFarmerId) + 1
      ensures nextUserId == old(nextUserId) && nextRecordId == old(nextRecordId)
    {
      assert forall g :: g in farmers ==> g.username != f.username by {
        forall g | g in farmers
          ensures g.username != f.username
        {
          assert !Identifies(Username(f.username), g);
        }
      }
      stored := f.(id := nextFarmerId);
      farmers := farmers + [stored];
      nextFarmerId := nextFarmerId + 1;
    }

    /** `db.session.add(r)` for each of `rs`, then one `commit()`. */
    method AddRecords(rs: seq<DryingRecord>) returns (stored: seq<DryingRecord>)
      requires Valid()
      modifies this
      ensures Valid()
      ensures stored == Numbered(rs, old(nextRecordId)) && records == old(records) + stored
      ensures nextRecordId == old(nextRecordId) + |rs|
      ensures users == old(users) && farmers == old(farmers)
      ensures nextUserId == old(nextUserId) && nextFarmerId == old(nextFarmerId)
    {
      stored := Numbered(rs, nextRecordId);
      records := records + stored;
      nextRecordId := nextRecordId + |rs|;
    }

    /** Field overwrites on a loaded record, then `commit()`. */
    method ReplaceRecord(i: nat, r: DryingRecord)
      requires Valid() && i < |records| && r.id == records[i].id
      modifies this
      ensures Valid()
      ensures records == old(records)[i := r]
      ensures users == old(users) && farmers == old(farmers)
      ensures nextUserId == old(nextUserId) && nextFarmerId == old(nextFarmerId) && nextRecordId == old(nextRecordId)
    {
      records := records[i := r];
    }

    /** `db.session.delete(record)` then `commit()`. */
    method RemoveRecord(i: nat)
      requires Valid() && i < |records|
      modifies this
      ensures Valid()
      ensures records == old(records)[..i] + old(records)[i + 1..]
      ensures users == old(users) && farmers == old(farmers)
      ensures nextUserId == old(nextUserId) && nextFarmerId == old(nextFarmerId) && nextRecordId == old(nextRecordId)
    {
      records := records[..i] + records[i + 1..];
    }
  }
}

=== FILE: text.dfy ===
/**
 * Decimal text as Python produces and reads it: `str()` of an integer,
 * `int()` of a string, and the ordering `<` on strings.
 */
module Text {
  import opened Wrappers

  predicate IsDigit(c: char) {
    '0' <= c <= '9'
  }

  predicate AllDigits(s: string) {
    forall i :: 0 <= i < |s| ==> IsDigit(s[i])
  }

  function DigitChar(d: nat): (c: char)
    requires d < 10
    ensures IsDigit(c) && c as int - '0' as int == d
  {
    ('0' as int + d) as char
  }

  function DigitValue(c: char): nat
    requires IsDigit(c)
  {
    c as int - '0' as int
  }

  /** Python's `str(n)` for a non-negative integer: no leading zeros. */
  function NatToString(n: nat): (s: string)
    ensures |s| >= 1 && AllDigits(s)
    ensures s[0] == '0' ==> s == "0"
  {
    if n < 10 then [DigitChar(n)] else NatToString(n / 10) + [DigitChar(n % 10)]
  }

  /** Python's `str(i)` for any integer. */
  function IntToString(i: int): (s: string)
    ensures |s| >= 1 && (s[0] == '-' <==> i < 0)
    ensures i >= 0 ==> AllDigits(s) && (s[0] == '0' ==> s == "0")
    ensures i < 0 ==> |s| >= 2 && AllDigits(s[1..]) && s[1] != '0'
  {
    if i < 0 then "-" + NatToString(-i) else NatToString(i)
  }

  /** The number a string of decimal digits denotes (leading zeros allowed). */
  function DigitsValue(s: string): nat
    requires AllDigits(s)
  {
    if s == [] then 0 else DigitsValue(s[..|s| - 1]) * 10 + DigitValue(s[|s| - 1])
  }

  /**
   * Python's `int(s)` on a `str`, restricted to an optional sign followed by
   * ASCII decimal digits; `None` stands for the `ValueError` it raises.
   */
  function ParseInt(s: string): (r: Option<int>)
    ensures |s| >= 1 && AllDigits(s) ==> r == Some(DigitsValue(s) as int)
    ensures |s| >= 2 && s[0] == '+' && AllDigits(s[1..]) ==> r == Some(DigitsValue(s[1..]) as int)
    ensures |s| >= 2 && s[0] == '-' && AllDigits(s[1..]) ==> r == Some(-(DigitsValue(s[1..]) as int))
    ensures r.Some? <==> (|s| >= 1 && AllDigits(s)) || (|s| >= 2 && (s[0] == '-' || s[0] == '+') && AllDigits(s[1..]))
    ensures |s| > 0 && !IsDigit(s[0]) && s[0] != '-' && s[0] != '+' ==> r == None
  {
    if |s| >= 2 && (s[0] == '-' || s[0] == '+') && AllDigits(s[1..]) then
      Some(if s[0] == '-' then -(DigitsValue(s[1..]) as int) else DigitsValue(s[1..]))
    else if |s| >= 1 && AllDigits(s) then
      Some(DigitsValue(s))
    else
      None
  }

  lemma {:induction false} NatToStringValue(n: nat)
    ensures DigitsValue(NatToString(n)) == n
  {
    if n >= 10 {
      var s := NatToString(n);
      assert s[..|s| - 1] == NatToString(n / 10);
      NatToStringValue(n / 10);
    }
  }

  /** `int(str(i)) == i`. */
  lemma IntToStringRoundTrip(i: int)
    ensures ParseInt(IntToString(i)) == Some(i)
  {
    var s := IntToString(i);
    if i < 0 {
      assert s[1..] == NatToString(-i);
      assert s[0] == '-' && |s| >= 2 && AllDigits(s[1..]);
      NatToStringValue(-i);
    } else {
      assert s == NatToString(i) && AllDigits(s) && IsDigit(s[0]);
      NatToStringValue(i);
    }
  }

  /** Distinct integers have distinct decimal strings. */
  lemma IntToStringInjective(a: int, b: int)
    ensures IntToString(a) == IntToString(b) ==> a == b
  {
    IntToStringRoundTrip(a);
    IntToStringRoundTrip(b);
  }

  /** Python's `a < b` on `str`: lexicographic by code point, a proper prefix first. */
  predicate LexLt(a: string, b: string) {
    |b| > 0 && (|a| == 0 || a[0] < b[0] || (a[0] == b[0] && LexLt(a[1..], b[1..])))
  }

  /** Python's own definition: `a` is a proper prefix of `b`, or `a` is smaller where the two first differ. */
  predicate FirstDifferenceLess(a: string, b: string) {
    || (|a| < |b| && a == b[..|a|])
    || (exists k :: 0 <= k < |a| && k < |b| && a[..k] == b[..k] && a[k] < b[k])
  }

  lemma {:induction false} LexLtIsFirstDifference(a: string, b: string)
    ensures LexLt(a, b) <==> FirstDifferenceLess(a, b)
  {
    if |a| == 0 || |b| == 0 {
    } else if a[0] < b[0] {
      assert a[..0] == b[..0];
    } else if a[0] == b[0] {
      LexLtIsFirstDifference(a[1..], b[1..]);
      FirstDifferenceTail(a, b);
    } else if exists k :: 0 <= k < |a| && k < |b| && a[..k] == b[..k] && a[k] < b[k] {
      var k :| 0 <= k < |a| && k < |b| && a[..k] == b[..k] && a[k] < b[k];
      if k > 0 {
        assert a[..k][0] == b[..k][0];
      }
    }
  }

  /** Behind an equal first character, the first difference is the tails' first difference. */
  lemma FirstDifferenceTail(a: string, b: string)
    requires |a| > 0 && |b| > 0 && a[0] == b[0]
    ensures FirstDifferenceLess(a, b) <==> FirstDifferenceLess(a[1..], b[1..])
  {
    var a', b' := a[1..], b[1..];
    if |a'| < |b'| && a' == b'[..|a'|] {
      assert a == [a[0]] + a' && b[..|a|] == [b[0]] + b'[..|a'|];
    }
    if |a| < |b| && a == b[..|a|] {
      assert a' == b'[..|a'|];
    }
    if exists k :: 0 <= k < |a'| && k < |b'| && a'[..k] == b'[..k] && a'[k] < b'[k] {
      var k :| 0 <= k < |a'| && k < |b'| && a'[..k] == b'[..k] && a'[k] < b'[k];
      assert a[..k + 1] == [a[0]] + a'[..k] && b[..k + 1] == [b[0]] + b'[..k];
      assert a[k + 1] < b[k + 1];
    }
    if exists k :: 0 <= k < |a| && k < |b| && a[..k] == b[..k] && a[k] < b[k] {
      var k :| 0 <= k < |a| && k < |b| && a[..k] == b[..k] && a[k] < b[k];
      assert k > 0;
      assert a'[..k - 1] == a[..k][1..] && b'[..k - 1] == b[..k][1..];
      assert a'[k - 1] < b'[k - 1];
    }
  }


  lemma {:induction false} LexLtIrreflexive(a: string)
    ensures !LexLt(a, a)
  {
    if |a| > 0 {
      LexLtIrreflexive(a[1..]);
    }
  }

  lemma {:induction false} LexLtTransitive(a: string, b: string, c: string)
    requires LexLt(a, b) && LexLt(b, c)
    ensures LexLt(a, c)
  {
    if |a| > 0 && a[0] == b[0] && b[0] == c[0] {
      LexLtTransitive(a[1..], b[1..], c[1..]);
    }
  }

  lemma {:induction false} LexLtConnected(a: string, b: string)
    requires a != b
    ensures LexLt(a, b) || LexLt(b, a)
  {
    if |a| > 0 && |b| > 0 && a[0] == b[0] {
      assert a == [a[0]] + a[1..] && b == [b[0]] + b[1..];
      LexLtConnected(a[1..], b[1..]);
    }
  }

  /** Value of a digit string read from the front: the leading digit weighs 10^(|s|-1). */
  function Pow10(k: nat): (p: nat)
    ensures p >= 1
  {
    if k == 0 then 1 else 10 * Pow10(k - 1)
  }

  lemma {:induction false} DigitsValueBound(s: string)
    requires AllDigits(s)
    ensures DigitsValue(s) < Pow10(|s|)
  {
    if s != [] {
      DigitsValueBound(s[..|s| - 1]);
    }
  }

  lemma {:induction false} DigitsValueFront(s: string)
    requires AllDigits(s) && |s| > 0
    ensures DigitsValue(s) == DigitValue(s[0]) * Pow10(|s| - 1) + DigitsValue(s[1..])
  {
    if |s| > 1 {
      var init, t := s[..|s| - 1], s[1..];
      DigitsValueFront(init);
      assert init[1..] == t[..|t| - 1];
      assert init[0] == s[0] && t[|t| - 1] == s[|s| - 1];
      FrontShift(DigitValue(s[0]), Pow10(|s| - 2), DigitsValue(init[1..]), DigitValue(s[|s| - 1]));
    } else {
      assert s[1..] == [];
      assert s[..0] == [];
    }
  }

  lemma FrontShift(d: int, q: int, rest: int, last: int)
    ensures (d * q + rest) * 10 + last == d * (10 * q) + (rest * 10 + last)
  {
  }

  lemma {:induction false} ScaledGap(x: nat, y: nat, p: nat)
    requires x < y && p >= 1
    ensures x * p + p <= y * p
    decreases y - x
  {
    if x + 1 < y {
      ScaledGap(x + 1, y, p);
      assert (x + 1) * p == x * p + p;
    } else {
      assert y * p == (x + 1) * p == x * p + p;
    }
  }

  /** Two strings of digits of the same length compare as strings exactly as their values do. */
  lemma {:induction false} LexLtDigits(a: string, b: string)
    requires |a| == |b| && AllDigits(a) && AllDigits(b)
    ensures LexLt(a, b) <==> DigitsValue(a) < DigitsValue(b)
    decreases |a|
  {
    if |a| > 0 {
      DigitsValueFront(a);
      DigitsValueFront(b);
      DigitsValueBound(a[1..]);
      DigitsValueBound(b[1..]);
      var p := Pow10(|a| - 1);
      if a[0] == b[0] {
        LexLtDigits(a[1..], b[1..]);
      } else if a[0] < b[0] {
        ScaledGap(DigitValue(a[0]), DigitValue(b[0]), p);
      } else {
        ScaledGap(DigitValue(b[0]), DigitValue(a[0]), p);
      }
    }
  }
}

=== FILE: views.dfy ===
/**
 * The request handlers of the tracker's main blueprint: who sees which
 * records, the dashboards and analytics pages built from the keyed folds, and
 * the handlers that add, edit and delete rows. Handlers answer with a
 * `Response`; a handler that only reads takes the tables it queries as
 * values, and one that writes takes the `Database`.
 */
module Views {
  import opened Wrappers
  import opened Models
  import opened Calendar
  import Text
  import Sorting
  import opened Aggregation
  import opened Ordering
  import opened Store
  import opened Http

  // ---------------------------------------------------------------------
  // Scoping
  // ---------------------------------------------------------------------

  /** A `filter_by` on the records table. */
  datatype Criterion =
    | BarangayIs(name: Option<string>)  // filter_by(barangay_name=name); None matches NULL
    | FarmerIs(id: int)                 // filter_by(farmer_id=id)

  predicate Matches(c: Criterion, r: DryingRecord) {
    match c
    case BarangayIs(name) => r.barangayName == name
    case FarmerIs(id) => r.farmerId == Some(id)
  }

  /** The rows of `rs` that satisfy `c`, in table order. */
  function Where(rs: seq<DryingRecord>, c: Criterion): (out: seq<DryingRecord>)
    ensures forall r :: r in out <==> r in rs && Matches(c, r)
    ensures forall r :: multiset(out)[r] == if Matches(c, r) then multiset(rs)[r] else 0
  {
    if rs == [] then []
    else
      assert rs == [rs[0]] + rs[1..];
      (if Matches(c, rs[0]) then [rs[0]] else []) + Where(rs[1..], c)
  }

  /** `Farmer.query.filter_by(barangay_name=name)`: a farmer's barangay is never NULL. */
  function FarmersIn(farmers: seq<Farmer>, name: Option<string>): (out: seq<Farmer>)
    ensures forall f :: f in out <==> f in farmers && name == Some(f.barangayName)
  {
    if farmers == [] then []
    else (if name == Some(farmers[0].barangayName) then [farmers[0]] else []) + FarmersIn(farmers[1..], name)
  }

  /** `order_by(DryingRecord.timestamp.desc())` as a strict comparison. */
  function NewerFirst(): (DryingRecord, DryingRecord) -> bool {
    (a: DryingRecord, b: DryingRecord) => a.timestamp > b.timestamp
  }

  /** The rows of `rs`, newest first. */
  function ByTimestampDesc(rs: seq<DryingRecord>): (out: seq<DryingRecord>)
    ensures multiset(out) == multiset(rs)
    ensures forall i, j :: 0 <= i < j < |out| ==> out[i].timestamp >= out[j].timestamp
  {
    assert Sorting.StrictOrder(NewerFirst());
    Sorting.SortSorted(rs, NewerFirst());
    Sorting.Sort(rs, NewerFirst())
  }

  /**
   * The `records` page: municipal staff see every record, barangay staff the
   * records of their barangay, a farmer the records attributed to them, and
   * any other role nothing; newest first in every case.
   */
  function VisibleRecords(p: Principal, records: seq<DryingRecord>): (out: seq<DryingRecord>)
    ensures Role(p) == "municipal" ==> multiset(out) == multiset(records)
    ensures Role(p) == "barangay" ==>
      forall r :: multiset(out)[r] == if r.barangayName == BarangayName(p) then multiset(records)[r] else 0
    ensures Role(p) == "farmer" ==>
      forall r :: multiset(out)[r] == if r.farmerId == Some(Id(p)) then multiset(records)[r] else 0
    ensures Role(p) !in {"municipal", "barangay", "farmer"} ==> out == []
    ensures forall i, j :: 0 <= i < j < |out| ==> out[i].timestamp >= out[j].timestamp
  {
    if Role(p) == "municipal" then ByTimestampDesc(records)
    else if Role(p) == "barangay" then ByTimestampDesc(Where(records, BarangayIs(BarangayName(p))))
    else if Role(p) == "farmer" then ByTimestampDesc(Where(records, FarmerIs(Id(p))))
    else []
  }

  /** The `farmers` page: barangay staff only, listing the farmers of their barangay. */
  function Farmers(p: Principal, farmers: seq<Farmer>): (resp: Response<seq<Farmer>>)
    ensures Role(p) != "barangay" ==> resp == Redirect(DashboardPage)
    ensures Role(p) == "barangay" ==>
      resp.Render? && forall f :: f in resp.page <==> f in farmers && BarangayName(p) == Some(f.barangayName)
  {
    if Role(p) != "barangay" then Redirect(DashboardPage)
    else Render(FarmersIn(farmers, BarangayName(p)))
  }

  // ---------------------------------------------------------------------
  // Dashboards and analytics
  // ---------------------------------------------------------------------

  /** What `dashboard.html` is rendered with. */
  datatype DashboardView = DashboardView(chart: Chart<Weights>, isMunicipal: bool, viewType: string)

  /** What the analytics templates are rendered with. */
  datatype AnalyticsView = AnalyticsView(chart: Chart<real>, period: string)

  /** `c` holds, under some key order, the two-weight buckets of `rs` grouped by `g`. */
  ghost predicate HoldsWeights(c: Chart<Weights>, rs: seq<DryingRecord>, g: Grouping) {
    && WellFormed(c)
    && (forall k :: k in c.values <==> k in GroupKeys(rs, g))
    && (forall k :: k in c.values ==>
          c.values[k] == Weights(Total(rs, g, Initial, k), Total(rs, g, FinalAfterInitial, k)))
  }

  /** `c` holds, under some key order, the final-weight buckets of `rs` grouped by `g`. */
  ghost predicate HoldsYield(c: Chart<real>, rs: seq<DryingRecord>, g: Grouping) {
    && WellFormed(c)
    && (forall k :: k in c.values <==> k in GroupKeys(rs, g))
    && (forall k :: k in c.values ==> c.values[k] == Total(rs, g, Final, k))
  }

  /** Keys whose months, read back with `names`, strictly increase. */
  predicate Chronological(names: seq<string>, ks: seq<string>) {
    && (forall i :: 0 <= i < |ks| ==> ParseMonthYear(names, ks[i]).Some?)
    && (forall i, j :: 0 <= i < j < |ks| ==>
          Earlier(ParseMonthYear(names, ks[i]).value, ParseMonthYear(names, ks[j]).value))
  }

  /** Keys whose integer values strictly increase. */
  predicate Ascending(ks: seq<string>) {
    && (forall i :: 0 <= i < |ks| ==> Text.ParseInt(ks[i]).Some?)
    && (forall i, j :: 0 <= i < j < |ks| ==> Text.ParseInt(ks[i]).value < Text.ParseInt(ks[j]).value)
  }

  /**
   * `dashboard`: staff are sent to the barangay dashboard; a farmer gets their
   * own records bucketed by batch name, in first-seen order; any other role
   * goes to the login page.
   */
  method Dashboard(records: seq<DryingRecord>, p: Principal) returns (resp: Response<DashboardView>)
    ensures Role(p) == "municipal" || Role(p) == "barangay" ==> resp == Redirect(BarangayDashboardPage)
    ensures Role(p) == "farmer" ==> resp.Render? && resp.page.viewType == "batch_bar" && !resp.page.isMunicipal
    ensures Role(p) == "farmer" ==> var rs := Where(records, FarmerIs(Id(p)));
      resp.page.chart.keys == GroupKeys(rs, ByBatch) && HoldsWeights(resp.page.chart, rs, ByBatch)
    ensures Role(p) !in {"municipal", "barangay", "farmer"} ==> resp == Redirect(LoginPage)
  {
    if Role(p) == "municipal" || Role(p) == "barangay" {
      return Redirect(BarangayDashboardPage);
    } else if Role(p) == "farmer" {
      var chart := GroupWeights(Where(records, FarmerIs(Id(p))), ByBatch);
      return Render(DashboardView(chart, false, "batch_bar"));
    } else {
      return Redirect(LoginPage);
    }
  }

  /**
   * `barangay_dashboard`: municipal staff get every record bucketed by
   * barangay name; barangay staff get their barangay's records bucketed by
   * '%B %Y' month, in chronological order; anyone else goes to the records page.
   */
  method BarangayDashboard(records: seq<DryingRecord>, p: Principal) returns (resp: Response<DashboardView>)
    ensures Role(p) == "municipal" ==> resp.Render? && resp.page.viewType == "total" && resp.page.isMunicipal
    ensures Role(p) == "municipal" ==>
      resp.page.chart.keys == GroupKeys(records, ByBarangay) && HoldsWeights(resp.page.chart, records, ByBarangay)
    ensures Role(p) == "barangay" ==> resp.Render? && resp.page.viewType == "monthly_bar" && !resp.page.isMunicipal
    ensures Role(p) == "barangay" ==> var rs := Where(records, BarangayIs(BarangayName(p)));
      && resp.page.chart.keys == OrderedKeys(ByParsed(FullMonthYear), GroupKeys(rs, ByFullMonth))
      && HoldsWeights(resp.page.chart, rs, ByFullMonth)
      && Chronological(MonthNames, resp.page.chart.keys)
    ensures Role(p) != "municipal" && Role(p) != "barangay" ==> resp == Redirect(RecordsPage)
  {
    if Role(p) == "municipal" {
      var chart := GroupWeights(records, ByBarangay);
      return Render(DashboardView(chart, true, "total"));
    } else if Role(p) == "barangay" {
      var rs := Where(records, BarangayIs(BarangayName(p)));
      var monthly := GroupWeights(rs, ByFullMonth);
      var sorted := Reorder(monthly, ByParsed(FullMonthYear));
      MonthKeysChronological(rs, ByFullMonth);
      return Render(DashboardView(sorted, false, "monthly_bar"));
    } else {
      return Redirect(RecordsPage);
    }
  }

  /** The grouping an analytics period selects: 'year' groups by year, anything else by '%b %Y' month. */
  function PeriodGrouping(period: string): (g: Grouping)
    ensures g == ByYear <==> period == "year"
    ensures g != ByYear ==> g == ByAbbrevMonth
  {
    if period == "year" then ByYear else ByAbbrevMonth
  }

  /** The sort key an analytics period selects: 'month' parses '%b %Y', anything else uses `int`. */
  function PeriodParser(period: string): (k: KeyParser)
    ensures k == AbbrevMonthYear <==> period == "month"
    ensures k != AbbrevMonthYear ==> k == Integer
  {
    if period == "month" then AbbrevMonthYear else Integer
  }

  /**
   * The key order an analytics period ends up with: increasing years for
   * 'year', chronological months for 'month', and first-seen order for any
   * other period.
   */
  lemma PeriodOrder(rs: seq<DryingRecord>, period: string)
    ensures var ks := OrderedKeys(ByParsed(PeriodParser(period)), GroupKeys(rs, PeriodGrouping(period)));
      && (period == "year" ==> Ascending(ks))
      && (period == "month" ==> Chronological(MonthAbbreviations, ks))
      && (period != "year" && period != "month" ==> ks == GroupKeys(rs, ByAbbrevMonth))
  {
    if period == "year" {
      YearKeysAscending(rs);
    } else if period == "month" {
      MonthKeysChronological(rs, ByAbbrevMonth);
    } else {
      UnknownPeriodKeepsFirstSeenOrder(rs);
    }
  }

  /**
   * `barangay_analytics`: barangay staff only. Their barangay's final weights
   * are bucketed by the period (default 'month'); a final weight `float()`
   * rejects raises out of the view.
   */
  method BarangayAnalytics(records: seq<DryingRecord>, p: Principal, period: Option<string>)
    returns (resp: Response<AnalyticsView>)
    ensures Role(p) != "barangay" ==> resp == Redirect(DashboardPage)
    ensures Role(p) == "barangay" ==>
      var rs := Where(records, BarangayIs(BarangayName(p)));
      var tp := period.GetOr("month");
      var g := PeriodGrouping(tp);
      && (resp.Status? <==> HasBadGroupedWeight(rs, g))
      && (resp.Status? ==> resp.code == 500)
      && (!resp.Status? ==> resp.Render? && resp.page.period == tp)
      && (resp.Render? ==> resp.page.chart.keys == OrderedKeys(ByParsed(PeriodParser(tp)), GroupKeys(rs, g)))
      && (resp.Render? ==> HoldsYield(resp.page.chart, rs, g))
  {
    if Role(p) != "barangay" {
      return Redirect(DashboardPage);
    }
    var tp := period.GetOr("month");
    var rs := Where(records, BarangayIs(BarangayName(p)));
    var g := PeriodGrouping(tp);
    var data := GroupYieldOrAbort(rs, g);
    if data.None? {
      return Status(500);
    }
    var sorted := Reorder(data.value, ByParsed(PeriodParser(tp)));
    return Render(AnalyticsView(sorted, tp));
  }

  /**
   * `farmer_analytics`: farmers only (staff go to the barangay dashboard,
   * anyone else to the login page). The farmer's final weights are bucketed
   * by the period (default 'month'); a weight `float()` rejects is skipped.
   */
  method FarmerAnalytics(records: seq<DryingRecord>, p: Principal, period: Option<string>)
    returns (resp: Response<AnalyticsView>)
    ensures Role(p) != "farmer" && Role(p) in {"municipal", "barangay"} ==> resp == Redirect(BarangayDashboardPage)
    ensures Role(p) != "farmer" && Role(p) !in {"municipal", "barangay"} ==> resp == Redirect(LoginPage)
    ensures Role(p) == "farmer" ==>
      var rs := Where(records, FarmerIs(Id(p)));
      var tp := period.GetOr("month");
      var g := PeriodGrouping(tp);
      && resp.Render? && resp.page.period == tp
      && resp.page.chart.keys == OrderedKeys(ByParsed(PeriodParser(tp)), GroupKeys(rs, g))
      && HoldsYield(resp.page.chart, rs, g)
  {
    if Role(p) != "farmer" {
      if Role(p) in {"municipal", "barangay"} {
        return Redirect(BarangayDashboardPage);
      } else {
        return Redirect(LoginPage);
      }
    }
    var tp := period.GetOr("month");
    var rs := Where(records, FarmerIs(Id(p)));
    var g := PeriodGrouping(tp);
    var data := GroupYield(rs, g);
    var sorted := Reorder(data, ByParsed(PeriodParser(tp)));
    return Render(AnalyticsView(sorted, tp));
  }

  /**
   * `analytics`: municipal staff only. Every record's final weight is
   * bucketed by the view (default 'year'), a weight `float()` rejects raises
   * out of the view, and the buckets are sorted by key as strings, which for
   * years is numeric order.
   */
  method Analytics(records: seq<DryingRecord>, p: Principal, view: Option<string>)
    returns (resp: Response<AnalyticsView>)
    ensures Role(p) != "municipal" ==> resp == Redirect(DashboardPage)
    ensures Role(p) == "municipal" ==>
      var vt := view.GetOr("year");
      var g := PeriodGrouping(vt);
      && (resp.Status? <==> HasBadGroupedWeight(records, g))
      && (resp.Status? ==> resp.code == 500)
      && (!resp.Status? ==> resp.Render? && resp.page.period == vt)
      && (resp.Render? ==> resp.page.chart.keys == OrderedKeys(AsStrings, GroupKeys(records, g)))
      && (resp.Render? ==> HoldsYield(resp.page.chart, records, g))
      && (resp.Render? && vt == "year" ==> Ascending(resp.page.chart.keys))
  {
    if Role(p) != "municipal" {
      return Redirect(DashboardPage);
    }
    var vt := view.GetOr("year");
    var g := PeriodGrouping(vt);
    var data := GroupYieldOrAbort(records, g);
    if data.None? {
      return Status(500);
    }
    var sorted := Reorder(data.value, AsStrings);
    MunicipalYearsAscending(records);
    return Render(AnalyticsView(sorted, vt));
  }

  // ---------------------------------------------------------------------
  // Writes
  // ---------------------------------------------------------------------

  /** A date form field: empty, a valid 'YYYY-MM-DD', or text `strptime` rejects. */
  datatype DateInput = Blank | Given(date: Date) | Malformed

  /** The stored value of a date field that parsed: empty becomes NULL. */
  function DateValue(x: DateInput): (d: Option<Date>)
    ensures x.Given? ==> d == Some(x.date)
    ensures !x.Given? ==> d == None
  {
    if x.Given? then Some(x.date) else None
  }

  /** The `add_record` form. Numeric fields hold the submitted text as `float()` would read it. */
  datatype RecordForm = RecordForm(
    farmerId: Option<string>,
    batchName: string,
    initialWeight: Numeric,
    finalWeight: Numeric,
    temperature: Numeric,
    humidity: Numeric,
    sensorValue: Numeric,
    initialMoisture: Numeric,
    finalMoisture: Numeric,
    dryingTime: string,
    dueDate: DateInput,
    datePlanted: DateInput,
    dateHarvested: DateInput,
    dateDried: DateInput)

  predicate AnyMalformed(a: DateInput, b: DateInput, c: DateInput, d: DateInput) {
    a.Malformed? || b.Malformed? || c.Malformed? || d.Malformed?
  }

  /**
   * Some numeric column of the form holds text `float()` rejects (a blank
   * field, or one that is not a number). The `Float` columns convert the
   * submitted text only when the commit flushes the row, so the commit raises.
   */
  predicate NumericRejected(form: RecordForm) {
    || Float(form.initialWeight).None? || Float(form.finalWeight).None?
    || Float(form.temperature).None? || Float(form.humidity).None? || Float(form.sensorValue).None?
    || Float(form.initialMoisture).None? || Float(form.finalMoisture).None?
  }

  /** The farmer a new record is attributed to, as snapshotted into the record. */
  datatype Owner = Owner(farmerId: int, farmerName: string, barangayName: Option<string>)

  /**
   * The `add_record` gate. A farmer may only name themself, by the decimal
   * form of their id. Barangay staff must name, by an integer id, an existing
   * farmer of their own barangay. Every other role is refused.
   */
  function Attribution(farmers: seq<Farmer>, p: Principal, field: Option<string>): (r: Option<Owner>)
    requires UniqueFarmerIds(farmers)
    ensures Role(p) != "farmer" && Role(p) != "barangay" ==> r.None?
    ensures Role(p) == "farmer" ==> (r.Some? <==> field == Some(Text.IntToString(Id(p))))
    ensures Role(p) == "farmer" && r.Some? ==> r.value == Owner(Id(p), DisplayName(p), BarangayName(p))
    ensures Role(p) == "barangay" ==>
      (r.Some? <==> exists f :: f in farmers && field.Some? && Text.ParseInt(field.value) == Some(f.id)
                               && BarangayName(p) == Some(f.barangayName))
    ensures Role(p) == "barangay" && r.Some? ==>
      exists f :: f in farmers && field.Some? && Text.ParseInt(field.value) == Some(f.id)
                && BarangayName(p) == Some(f.barangayName) && r.value == Owner(f.id, FullName(f), Some(f.barangayName))
  {
    if Role(p) == "farmer" then
      if field.None? || field.value == "" || field.value != Text.IntToString(Id(p)) then None
      else Some(Owner(Id(p), DisplayName(p), BarangayName(p)))
    else if Role(p) == "barangay" then
      if field.None? || field.value == "" then None
      else
        match Text.ParseInt(field.value)
        case None => None
        case Some(id) =>
          match FindFarmer(farmers, FarmerId(id))
          case None => None
          case Some(f) =>
            if Some(f.barangayName) != BarangayName(p) then None
            else
              assert forall g :: g in farmers && g.id == id ==> g == f;
              Some(Owner(f.id, FullName(f), Some(f.barangayName)))
    else None
  }

  /**
   * Barangay staff name a farmer by an id that `int()` reads but SQLite cannot
   * bind, so `Farmer.query.get` raises `OverflowError`, which the handler's
   * `except (ValueError, TypeError)` does not catch.
   */
  predicate FarmerLookupOverflows(p: Principal, field: Option<string>) {
    && Role(p) == "barangay"
    && field.Some? && field.value != ""
    && Text.ParseInt(field.value).Some?
    && !FitsInteger(Text.ParseInt(field.value).value)
  }

  /** The row `add_record` inserts (before the database assigns its id). */
  function NewRecord(form: RecordForm, owner: Owner, userId: int, now: int): (r: DryingRecord)
    ensures r.farmerId == Some(owner.farmerId) && r.farmerName == Some(owner.farmerName)
    ensures r.barangayName == owner.barangayName && r.userId == userId && r.timestamp == now
    ensures r.dateDried == DateValue(form.dateDried) && r.dueDate == DateValue(form.dueDate)
    ensures r.datePlanted == DateValue(form.datePlanted) && r.dateHarvested == DateValue(form.dateHarvested)
    ensures r.batchName == form.batchName && r.initialWeight == form.initialWeight && r.finalWeight == form.finalWeight
    ensures r.temperature == form.temperature && r.humidity == form.humidity && r.sensorValue == form.sensorValue
    ensures r.initialMoisture == form.initialMoisture && r.finalMoisture == form.finalMoisture
    ensures r.dryingTime == form.dryingTime
    ensures r.shelfLife == None
  {
    DryingRecord(0, now, form.batchName, Some(owner.farmerName), form.initialWeight, form.temperature,
      form.humidity, form.sensorValue, form.initialMoisture, form.finalMoisture, form.dryingTime,
      form.finalWeight, None, DateValue(form.dateDried), DateValue(form.datePlanted),
      DateValue(form.dateHarvested), owner.barangayName, userId, Some(owner.farmerId), DateValue(form.dueDate))
  }

  /**
   * `add_record` (POST). Roles other than barangay and farmer go to the
   * barangay dashboard; a refused farmer goes to the records page; refused
   * barangay staff see the form again with their barangay's farmers; a
   * farmer id SQLite cannot bind, a date `strptime` rejects, or a numeric
   * value `float()` rejects at the commit, raises; otherwise exactly one
   * record is added.
   */
  method AddRecord(db: Database, p: Principal, form: RecordForm, now: int) returns (resp: Response<seq<Farmer>>)
    requires db.Valid()
    modifies db
    ensures db.Valid()
    ensures db.users == old(db.users) && db.farmers == old(db.farmers)
    ensures db.nextUserId == old(db.nextUserId) && db.nextFarmerId == old(db.nextFarmerId)
    ensures FarmerLookupOverflows(p, form.farmerId) ==>
      resp == Status(500) && db.records == old(db.records) && db.nextRecordId == old(db.nextRecordId)
    ensures !FarmerLookupOverflows(p, form.farmerId) ==>
      var owner := Attribution(db.farmers, p, form.farmerId);
      && (Role(p) != "barangay" && Role(p) != "farmer" ==> resp == Redirect(BarangayDashboardPage))
      && (Role(p) == "farmer" && owner.None? ==> resp == Redirect(RecordsPage))
      && (Role(p) == "barangay" && owner.None? ==> resp == Render(FarmersIn(db.farmers, BarangayName(p))))
      && (owner.Some? && AnyMalformed(form.dueDate, form.datePlanted, form.dateHarvested, form.dateDried) ==>
            resp == Status(500))
      && (owner.Some? && NumericRejected(form) ==> resp == Status(500))
      && (owner.None? || AnyMalformed(form.dueDate, form.datePlanted, form.dateHarvested, form.dateDried)
          || NumericRejected(form) ==>
            db.records == old(db.records) && db.nextRecordId == old(db.nextRecordId))
      && (owner.Some? && !AnyMalformed(form.dueDate, form.datePlanted, form.dateHarvested, form.dateDried)
          && !NumericRejected(form) ==>
            && resp == Redirect(RecordsPage)
            && db.records == old(db.records) + [NewRecord(form, owner.value, Id(p), now).(id := old(db.nextRecordId))]
            && db.nextRecordId == old(db.nextRecordId) + 1)
  {
    if Role(p) != "barangay" && Role(p) != "farmer" {
      return Redirect(BarangayDashboardPage);
    }
    if FarmerLookupOverflows(p, form.farmerId) {
      return Status(500);
    }
    var owner := Attribution(db.farmers, p, form.farmerId);
    if owner.None? {
      if Role(p) == "farmer" {
        return Redirect(RecordsPage);
      }
      return Render(FarmersIn(db.farmers, BarangayName(p)));
    }
    if AnyMalformed(form.dueDate, form.datePlanted, form.dateHarvested, form.dateDried) || NumericRejected(form) {
      return Status(500);
    }
    var stored := db.AddRecords([NewRecord(form, owner.value, Id(p), now)]);
    return Redirect(RecordsPage);
  }

  /** The `add_farmer` form. */
  datatype FarmerForm = FarmerForm(
    firstName: string,
    middleName: Option<string>,
    lastName: string,
    username: string,
    password: string)

  /**
   * `add_farmer`: barangay staff only. A taken username adds nothing. The new
   * farmer inherits the caller's barangay and user id, and stores the hashed
   * password; a caller without a barangay violates the column's NOT NULL.
   */
  method AddFarmer(db: Database, p: Principal, form: FarmerForm, hash: string -> string) returns (resp: Response<()>)
    requires db.Valid()
    modifies db
    ensures db.Valid()
    ensures db.users == old(db.users) && db.records == old(db.records)
    ensures db.nextUserId == old(db.nextUserId) && db.nextRecordId == old(db.nextRecordId)
    ensures Role(p) != "barangay" ==> resp == Redirect(DashboardPage)
    ensures Role(p) == "barangay" && FindFarmer(old(db.farmers), Username(form.username)).Some? ==>
      resp == Redirect(FarmersPage)
    ensures Role(p) == "barangay" && FindFarmer(old(db.farmers), Username(form.username)).None? && BarangayName(p).None? ==>
      resp == Status(500)
    ensures Role(p) != "barangay" || FindFarmer(old(db.farmers), Username(form.username)).Some? || BarangayName(p).None? ==>
      db.farmers == old(db.farmers) && db.nextFarmerId == old(db.nextFarmerId)
    ensures Role(p) == "barangay" && FindFarmer(old(db.farmers), Username(form.username)).None? && BarangayName(p).Some? ==>
      && resp == Redirect(FarmersPage)
      && db.farmers == old(db.farmers) + [Farmer(old(db.nextFarmerId), form.firstName, form.middleName, form.lastName,
                                                form.username, hash(form.password), BarangayName(p).value, Id(p))]
      && db.nextFarmerId == old(db.nextFarmerId) + 1
  {
    if Role(p) != "barangay" {
      return Redirect(DashboardPage);
    }
    if FindFarmer(db.farmers, Username(form.username)).Some? {
      return Redirect(FarmersPage);
    }
    if BarangayName(p).None? {
      return Status(500);
    }
    var farmer := Farmer(0, form.firstName, form.middleName, form.lastName, form.username,
      hash(form.password), BarangayName(p).value, Id(p));
    var stored := db.AddFarmer(farmer);
    return Redirect(FarmersPage);
  }

  /**
   * One item of a sync payload, read with `.get()`: a missing key is `None`.
   * Dates arrive already converted (see README).
   */
  datatype SyncItem = SyncItem(
    batchName: Option<string>,
    initialWeight: Option<Numeric>,
    temperature: Option<Numeric>,
    humidity: Option<Numeric>,
    sensorValue: Option<Numeric>,
    initialMoisture: Option<Numeric>,
    finalMoisture: Option<Numeric>,
    dryingTime: Option<string>,
    finalWeight: Option<Numeric>,
    shelfLife: Option<string>,
    datePlanted: Option<Date>,
    dateHarvested: Option<Date>,
    dateDried: Option<Date>,
    farmerName: Option<string>,
    farmerId: Option<int>)

  /** Every NOT NULL column of the record is present in the item. */
  predicate Complete(item: SyncItem) {
    && item.batchName.Some? && item.initialWeight.Some? && item.temperature.Some?
    && item.humidity.Some? && item.sensorValue.Some? && item.initialMoisture.Some?
    && item.finalMoisture.Some? && item.dryingTime.Some? && item.finalWeight.Some?
  }

  /**
   * The commit accepts the item's row: every NOT NULL column is present, every
   * numeric column holds a value `float()` accepts, and the farmer id, if any,
   * is one SQLite can bind.
   */
  predicate Storable(item: SyncItem) {
    && Complete(item)
    && Float(item.initialWeight.value).Some? && Float(item.temperature.value).Some?
    && Float(item.humidity.value).Some? && Float(item.sensorValue.value).Some?
    && Float(item.initialMoisture.value).Some? && Float(item.finalMoisture.value).Some?
    && Float(item.finalWeight.value).Some?
    && (item.farmerId.Some? ==> FitsInteger(item.farmerId.value))
  }

  /** The row `api_sync` builds from a complete item for the principal `p`. */
  function SyncedRecord(item: SyncItem, p: Principal, now: int): (r: DryingRecord)
    requires Complete(item)
    ensures r.userId == Id(p) && r.barangayName == BarangayName(p) && r.dueDate == None
    ensures r.farmerId == item.farmerId && r.farmerName == item.farmerName && r.timestamp == now
    ensures r.batchName == item.batchName.value && r.dryingTime == item.dryingTime.value
    ensures r.initialWeight == item.initialWeight.value && r.finalWeight == item.finalWeight.value
    ensures r.temperature == item.temperature.value && r.humidity == item.humidity.value
    ensures r.sensorValue == item.sensorValue.value
    ensures r.initialMoisture == item.initialMoisture.value && r.finalMoisture == item.finalMoisture.value
    ensures r.shelfLife == item.shelfLife && r.dateDried == item.dateDried
    ensures r.datePlanted == item.datePlanted && r.dateHarvested == item.dateHarvested
  {
    DryingRecord(0, now, item.batchName.value, item.farmerName, item.initialWeight.value,
      item.temperature.value, item.humidity.value, item.sensorValue.value, item.initialMoisture.value,
      item.finalMoisture.value, item.dryingTime.value, item.finalWeight.value, item.shelfLife,
      item.dateDried, item.datePlanted, item.dateHarvested, BarangayName(p), Id(p), item.farmerId, None)
  }

  /**
   * What `request.get_json()` yields, as far as `api_sync` looks at it.
   * `Invalid`: falsy JSON (`null`, `false`, `0`, `""`, `[]`, `{}`), or an
   * object, list or string in which `'records' in data` is false.
   * `Unusable`: any body on which the handler raises before the commit:
   * - a body that is not JSON;
   * - `true` or a non-zero number (`in` raises);
   * - a list or string that does contain "records" (indexing it raises);
   * - an object whose 'records' is `null`, a number or a boolean, such as
   *   `{"records": null}`, `{"records": 0}` or `{"records": false}`
   *   (iterating it raises);
   * - an object whose 'records' is a non-empty string or object, or a list
   *   holding anything but objects (calling `.get` on an item raises).
   * `Items`: an object whose 'records' is a list of objects, or an empty
   * string or object, which iterate as no items.
   */
  datatype SyncPayload = Invalid | Unusable | Items(items: seq<SyncItem>)

  /**
   * `api_sync`: an invalid payload is a 400. A payload that makes the handler
   * raise before the commit is a 500 with nothing added. Every item becomes
   * one new record, with no deduplication; an item missing a NOT NULL column,
   * with a numeric value `float()` rejects, or with a farmer id SQLite cannot
   * bind, makes the commit fail, the whole
   * batch is rolled back, and the answer is a 500.
   */
  method ApiSync(db: Database, p: Principal, payload: SyncPayload, now: int) returns (resp: Response<()>)
    requires db.Valid()
    modifies db
    ensures db.Valid()
    ensures db.users == old(db.users) && db.farmers == old(db.farmers)
    ensures db.nextUserId == old(db.nextUserId) && db.nextFarmerId == old(db.nextFarmerId)
    ensures payload.Invalid? ==> resp == Status(400)
    ensures payload.Unusable? ==> resp == Status(500)
    ensures payload.Items? && (exists i :: 0 <= i < |payload.items| && !Storable(payload.items[i])) ==>
      resp == Status(500)
    ensures resp != Status(200) ==> db.records == old(db.records) && db.nextRecordId == old(db.nextRecordId)
    ensures payload.Items? && (forall i :: 0 <= i < |payload.items| ==> Storable(payload.items[i])) ==>
      && resp == Status(200)
      && |db.records| == |old(db.records)| + |payload.items|
      && db.records[..|old(db.records)|] == old(db.records)
      && (forall i :: 0 <= i < |payload.items| ==>
           db.records[|old(db.records)| + i] == SyncedRecord(payload.items[i], p, now).(id := old(db.nextRecordId) + i))
      && db.nextRecordId == old(db.nextRecordId) + |payload.items|
  {
    if payload.Invalid? {
      return Status(400);
    }
    if payload.Unusable? {
      return Status(500);
    }
    var items := payload.items;
    var pending: seq<DryingRecord> := [];
    var ok := true;
    var i := 0;
    while i < |items|
      invariant 0 <= i <= |items|
      invariant ok <==> forall j :: 0 <= j < i ==> Storable(items[j])
      invariant ok ==> |pending| == i
      invariant ok ==> forall j :: 0 <= j < i ==> pending[j] == SyncedRecord(items[j], p, now)
    {
      if ok && Storable(items[i]) {
        pending := pending + [SyncedRecord(items[i], p, now)];
      } else {
        ok := false;
      }
      i := i + 1;
    }
    if !ok {
      return Status(500);
    }
    var stored := db.AddRecords(pending);
    return Status(200);
  }

  /** The `edit_record` form. */
  datatype EditForm = EditForm(
    batchName: string,
    initialWeight: Numeric,
    finalWeight: Numeric,
    dueDate: DateInput,
    datePlanted: DateInput,
    dateHarvested: DateInput,
    dateDried: DateInput)

  /**
   * One of the submitted weights is text `float()` rejects, so the commit's
   * conversion for the `Float` column raises.
   */
  predicate WeightRejected(form: EditForm) {
    Float(form.initialWeight).None? || Float(form.finalWeight).None?
  }

  /**
   * A record after `edit_record`'s overwrites: the batch name, both weights and
   * the four dates come from the form, every other column is kept.
   */
  function Edited(r: DryingRecord, form: EditForm): (e: DryingRecord)
    ensures e.batchName == form.batchName && e.initialWeight == form.initialWeight && e.finalWeight == form.finalWeight
    ensures e.dueDate == DateValue(form.dueDate) && e.datePlanted == DateValue(form.datePlanted)
    ensures e.dateHarvested == DateValue(form.dateHarvested) && e.dateDried == DateValue(form.dateDried)
    ensures e.(batchName := r.batchName, initialWeight := r.initialWeight, finalWeight := r.finalWeight,
               dueDate := r.dueDate, datePlanted := r.datePlanted, dateHarvested := r.dateHarvested,
               dateDried := r.dateDried) == r
  {
    r.(batchName := form.batchName, initialWeight := form.initialWeight, finalWeight := form.finalWeight,
       dueDate := DateValue(form.dueDate), datePlanted := DateValue(form.datePlanted),
       dateHarvested := DateValue(form.dateHarvested), dateDried := DateValue(form.dateDried))
  }

  /**
   * `edit_record` (POST): an id SQLite cannot bind makes `get_or_404` raise,
   * a 500; an unknown id is a 404, a date `strptime` rejects raises before
   * the commit, and a weight `float()` rejects makes the commit raise;
   * otherwise the record is overwritten in place.
   * There is no check of the caller's scope.
   */
  method EditRecord(db: Database, id: int, form: EditForm) returns (resp: Response<()>)
    requires db.Valid()
    modifies db
    ensures db.Valid()
    ensures db.users == old(db.users) && db.farmers == old(db.farmers)
    ensures db.nextUserId == old(db.nextUserId) && db.nextFarmerId == old(db.nextFarmerId) && db.nextRecordId == old(db.nextRecordId)
    ensures !FitsInteger(id) ==> resp == Status(500) && db.records == old(db.records)
    ensures FitsInteger(id) && IndexOfRecord(old(db.records), id).None? ==> resp == Status(404) && db.records == old(db.records)
    ensures (FitsInteger(id) && IndexOfRecord(old(db.records), id).Some? &&
             AnyMalformed(form.dueDate, form.datePlanted, form.dateHarvested, form.dateDried)) ==>
      resp == Status(500) && db.records == old(db.records)
    ensures FitsInteger(id) && IndexOfRecord(old(db.records), id).Some? && WeightRejected(form) ==>
      resp == Status(500) && db.records == old(db.records)
    ensures (FitsInteger(id) && IndexOfRecord(old(db.records), id).Some? &&
             !AnyMalformed(form.dueDate, form.datePlanted, form.dateHarvested, form.dateDried) &&
             !WeightRejected(form)) ==>
      var i := IndexOfRecord(old(db.records), id).value;
      resp == Redirect(RecordsPage) && db.records == old(db.records)[i := Edited(old(db.records)[i], form)]
  {
    if !FitsInteger(id) {
      return Status(500);
    }
    var index := IndexOfRecord(db.records, id);
    if index.None? {
      return Status(404);
    }
    if AnyMalformed(form.dueDate, form.datePlanted, form.dateHarvested, form.dateDried) || WeightRejected(form) {
      return Status(500);
    }
    var i := index.value;
    db.ReplaceRecord(i, Edited(db.records[i], form));
    return Redirect(RecordsPage);
  }

  /**
   * `delete_record`: an id SQLite cannot bind makes `get_or_404` raise, a
   * 500; an unknown id is a 404; otherwise exactly the record with
   * that id is removed. There is no check of the caller's scope.
   */
  method DeleteRecord(db: Database, id: int) returns (resp: Response<()>)
    requires db.Valid()
    modifies db
    ensures db.Valid()
    ensures db.users == old(db.users) && db.farmers == old(db.farmers)
    ensures db.nextUserId == old(db.nextUserId) && db.nextFarmerId == old(db.nextFarmerId) && db.nextRecordId == old(db.nextRecordId)
    ensures !FitsInteger(id) ==> resp == Status(500) && db.records == old(db.records)
    ensures FitsInteger(id) && IndexOfRecord(old(db.records), id).None? ==> resp == Status(404) && db.records == old(db.records)
    ensures FitsInteger(id) && IndexOfRecord(old(db.records), id).Some? ==>
      var i := IndexOfRecord(old(db.records), id).value;
      && resp == Redirect(RecordsPage)
      && db.records == old(db.records)[..i] + old(db.records)[i + 1..]
      && forall r :: r in db.records ==> r.id != id
  {
    if !FitsInteger(id) {
      return Status(500);
    }
    var index := IndexOfRecord(db.records, id);
    if index.None? {
      return Status(404);
    }
    var i := index.value;
    RemovedIdIsGone(db.records, i);
    db.RemoveRecord(i);
    return Redirect(RecordsPage);
  }
}

=== FILE: wrappers.dfy ===
/** Optional values: Python's `None` versus a present value. */
module Wrappers {

  datatype Option<+T> = None | Some(value: T) {

    /** The value if present, otherwise `default` (Python's `d.get(k, default)`). */
    function GetOr(default: T): T {
      match this
      case Some(v) => v
      case None => default
    }
  }
}
